=== FILE: README.md ===
# Strömstad price comparison: a Dafny model of the comparison engine

Stromstad-Deals compares grocery prices across four stores in Strömstad (ICA Kvantum,
Maxi ICA Nordby, Willys, Eurocash). An Express server keeps an enriched product
catalogue in a three-hour cache. It tries to scrape each store's offers page, and it
answers filtered catalogue queries. A browser storefront sorts and labels the answers.

This project models that comparison logic in Dafny and proves what it promises:

- `wrappers.dfy` (`Wrappers`): `Option` and `Result`.
- `seqs.dfy` (`Seqs`): `filter`, `map`, and a `map` whose callback may throw (`MapResult`).
  It also defines the subsequence relation these establish.
- `stable_sort.dfy` (`StableSort`): `Array.prototype.sort` as a stable insertion sort
  over a comparator read as "may come first" (`compare(a, b) <= 0`). It proves
  sortedness, permutation, stability (ties keep their input order) and idempotence.
- `text.dfy` (`Text`): decimal digits, the price label `<kronor><sep><öre> kr`,
  lower-casing (ASCII and Latin-1) and substring search.
- `catalog.dfy` (`Catalog`): products with an ordered store→price map, and
  `enrichProducts`. It derives `bestStore`, `bestPrice` and `savings`, then orders by
  savings.
- `scrapers.dfy` (`Scrapers`): the four scrapers. This covers price-text
  normalisation and `parseFloat`, the name and price acceptance rules, the embedded-JSON
  field chains with JavaScript truthiness, and the JSON-then-HTML layering.
- `product_query.dfy` (`ProductQuery`): the category, text and store filters of
  `GET /api/products`, plus the store filter as written (see Findings).
- `server.dfy` (`Server`): the store registry, `fetchAllProducts` and its liveness
  signal, the cache and its freshness test, the products handler and `/api/status`.
- `client.dfy` (`Storefront`): `formatPrice`, the registry and category lookups,
  `sortProducts` and the query string `loadProducts` sends.
- `scenarios.dfy` (`Scenarios`): worked cases on concrete catalogue data.

Prices are whole öre (13.50 kr is 1350) and times are milliseconds. A product's price
map is a sequence in the object's key order, because that order decides which store
wins a tie for the lowest price. Fetching pages, the clock and the scrapers' outcomes
are parameters: `Server.StorePages` holds the pages the scrapers would see, and
`now`/`completedAt` are clock readings.

Three facts about the code that the model keeps as they are:

- Refreshes are not de-duplicated. Every query that finds the cache stale runs
  `fetchAllProducts` itself, and the model has no in-flight refresh to wait for.
- There is no subcategory filter. The query handler reads only `category`, `q` and
  `store`.
- The category filter compares exactly and is case-sensitive.

## Model

| member | source | states |
|---|---|---|
| Catalog.Lookup | server.js:634-636 | `prices[store]` finds an entry exactly when some own key equals `store`, and the entry it returns is stored under that key |
| Catalog.MinPrice | server.js:420-422 | the reference minimum is at most every store's price and is the price of some store |
| Catalog.MaxPrice | server.js:423 | the reference maximum is at least every store's price and is the price of some store |
| Catalog.CheapestIndex | server.js:420-421 | picks the cheapest entry that comes first in key order: no entry is cheaper and no earlier entry has the same price |
| Catalog.SortedHeadIsFirstCheapest | server.js:420-421 | the head of the price-sorted entries is the first cheapest entry, so ties go to the store listed first |
| Catalog.SortedLastIsMax | server.js:420-423 | the last of the price-sorted entries carries the maximum price |
| Catalog.EnrichOne | server.js:418-425 | one product fails exactly when its price map is empty, naming that product; otherwise it keeps the product unchanged and adds the best store, the minimum price and the max−min spread |
| Catalog.BestStoreHoldsBestPrice | server.js:419-422 | with distinct keys, looking up `bestStore` in the product's prices yields `bestPrice` |
| Catalog.EnrichEach | server.js:418-425 | the mapping fails exactly when some product has no prices, and then with the first such product's id; on success it has one result per product |
| Catalog.EnrichEachConsistent | server.js:418-425 | on success, result `i` is product `i` with consistent derived fields |
| Catalog.Enrich | server.js:417-427 | `enrichProducts` fails only on an empty price map; otherwise it returns a permutation of the input products, every one consistent, ordered by non-increasing savings |
| Catalog.EnrichKeepsTiesInInputOrder | server.js:426 | products with equal savings keep their input order: the stable sort's promise on the catalogue |
| Seqs.MapResultFailure | server.js:418-421 | a `map` whose callback throws fails exactly when some element fails, and with the first failing element's error |
| StableSort.Sort | public/app.js:105-108 | the sort returns a sorted permutation of its input |
| StableSort.SortKeepsTiedOrder | public/app.js:105-108 | stability: elements the comparator ties keep their relative order |
| Scrapers.FirstComma | server.js:469 | locates the first comma, which is the only one `replace(',', '.')` changes |
| Scrapers.KeepPriceChars | server.js:469 | `replace(/[^0-9,]/g, '')` leaves only digits and commas, in their original order |
| Scrapers.KeepPriceCharsKeepsEveryPriceChar | server.js:469 | every digit or comma of the text appears in the result, and no other character does |
| Scrapers.KeepPriceCharsConcat | server.js:469 | the global replace works character by character: it distributes over concatenation and keeps one character exactly when it is a digit or a comma, so each occurrence survives once |
| Scrapers.ReplaceFirstComma | server.js:469 | replaces the first comma with a point and leaves every other character as it was |
| Scrapers.LeadingDigits | server.js:469 | takes the longest all-digit prefix |
| Scrapers.ParseFloatPrefix | server.js:469 | `parseFloat` gives NaN exactly when the text starts with neither a digit nor a point followed by a digit |
| Scrapers.ScrapedPrice | server.js:469 | the card's price is a number exactly when its kept digits and commas start with a digit, or with a comma followed by a digit |
| Scrapers.NoDigitsNoPrice | server.js:469-471 | price text without a digit ("kr", ",", "") parses to NaN, so the card is rejected |
| Scrapers.CommaLabelRoundTrip | server.js:469 | a shelf label "13,50 kr" is read back exactly as 1350/100 |
| Scrapers.OtherSeparatorReadsAsKronor | server.js:543 | any separator other than a comma is stripped, so "29:90 kr" or "29.90 kr" reads as 2990 |
| Scrapers.ExtractCards | server.js:540-548 | every card item is an offer with a positive price and a name that passes the store's rule; Maxi's `name.length > 2` counts UTF-16 code units |
| Scrapers.Utf16LengthOfBmp | server.js:545 | for text inside the Basic Multilingual Plane, which covers Swedish, `name.length` is the number of characters |
| Scrapers.AstralCharCountsTwice | server.js:545 | a letter followed by an emoji has `length` 3, so Maxi keeps such a name |
| Scrapers.ShelfLabelCardAccepted | server.js:469-471 | a named card labelled "kr,öö kr" is accepted exactly when the price is above zero, and carries that price |
| Scrapers.ExtractCardsIsFilterThenMap | server.js:566-574 | the card loop keeps exactly the accepted cards, in page order |
| Scrapers.FirstTruthy | server.js:501-506 | an or-chain of fields yields the first truthy field, or the fallback when none is truthy |
| Scrapers.ParseFloat | server.js:456 | `parseFloat` gives a number for a number, a non-negative number for text starting with a digit or a point and a digit, and NaN otherwise |
| Scrapers.JsonPriceStringParses | server.js:456 | a JSON price string "13.50" reads exactly as 1350/100 |
| Scrapers.OfferName | server.js:502-504 | the name chain is truthy exactly when one of its fields is |
| Scrapers.AcceptOffer | server.js:456-458 | a JSON record is pushed exactly when some field of its name chain is truthy and its parsed price is above zero; the item is its name, price and image, marked as an offer |
| Scrapers.ExtractOffers | server.js:455-461 | every item `forEach` pushes, before the array ends or a `null` element throws, is an offer with a positive price |
| Scrapers.ExtractOffersKeepsAccepted | server.js:500-511 | the items are exactly the accepted records' items, in array order, taken from the records before the first `null` element |
| Scrapers.NullishEndsTheArray | server.js:455-461 | a `null` element throws inside `forEach`: the items pushed before it stay, and nothing after it is read |
| Scrapers.RecordsBeforeNullish | server.js:455-456 | the records the loop reaches are the elements before the first `null` |
| Scrapers.ForEachOffer | server.js:455-461 | `forEach` on a non-array throws before pushing anything; on an array it yields the items of exactly the accepted records before the first `null` element, in array order |
| Scrapers.FirstList | server.js:496-499 | the or-chain over `offers`, `products` and `weeklyOffers` yields the first truthy field (an array even when empty, or a non-array), and `[]` when none is truthy |
| Scrapers.EmptyOffersHideProducts | server.js:454 | a present but empty `offers` array hides a non-empty `products` array |
| Scrapers.NonArrayOffersFallBackToCards | server.js:496-514 | a truthy non-array `offers` makes Willys throw before `products` is read, so it falls back to the cards |
| Scrapers.PriceFallsBackToCurrentPrice | server.js:456 | a missing, zero or empty `price` falls back to `currentPrice` |
| Scrapers.BlobItems | server.js:450-461 | an ignored script adds nothing; otherwise the first truthy of `offers` and `products` (or `[]`) adds nothing when it is not an array, and else the items of exactly the accepted records before the first `null`, in order |
| Scrapers.IcaJsonItems | server.js:447-462 | a page with one script yields that script's items, and only positive-priced offers |
| Scrapers.IcaJsonItemsConcat | server.js:447-462 | every script pushes into the one shared array: the items of a run of scripts are those of its first part followed by those of the rest |
| Scrapers.WillysJsonItems | server.js:492-512 | no `__NEXT_DATA__` yields nothing; otherwise the first truthy of `offers`, `products` and `weeklyOffers` (or `[]`) yields nothing when it is not an array, and else the items of exactly the accepted records before the first `null`, in order |
| Scrapers.CardFallbackOnlyWhenJsonEmpty | server.js:465-473 | the HTML scan replaces the JSON result only when the JSON gave nothing; with neither, the result is empty |
| Scrapers.ScrapeIca | server.js:438-481 | `[]` on a failed fetch; otherwise the script blobs' items when there are any, else exactly the accepted cards' items in page order |
| Scrapers.ScrapeWillys | server.js:484-530 | `[]` on a failed fetch; otherwise the `__NEXT_DATA__` items when there are any, else exactly the accepted cards' items in page order |
| Scrapers.ScrapeMaxi | server.js:532-556 | `[]` on a failed fetch; otherwise exactly the items of the cards with a name longer than two code units and a positive price, in page order |
| Scrapers.ScrapeEurocash | server.js:558-582 | `[]` on a failed fetch; otherwise exactly the items of the cards with a name and a positive price, in page order |
| ProductQuery.NarrowIsFilter | server.js:622-624 | an inactive filter step returns the list unchanged; an active one filters |
| ProductQuery.Run | server.js:622-636 | every product the intended filter chain returns is in the catalogue and satisfies every supplied criterion |
| ProductQuery.RunIsConjunction | server.js:622-636 | the three filter steps together equal one filter by the AND of every supplied criterion |
| Text.ToLower | server.js:628-631 | lower-cases the ASCII capitals and the Latin-1 capitals À–Þ (except ×), leaves every other character as it is, and keeps the length |
| Text.ContainsMeansSubstring | server.js:629-631 | `includes` holds exactly when the query occurs as a contiguous substring |
| ProductQuery.RunKeepsExactlyTheWanted | server.js:622-636 | every returned product is in the catalogue and wanted, and every wanted product is returned |
| ProductQuery.RunIsSubsequence | server.js:622-638 | the answer keeps the catalogue's order; the query layer does not re-sort |
| ProductQuery.NarrowCommutes | server.js:622-636 | any two filter steps commute |
| ProductQuery.NoFilterReturnsCatalogue | server.js:622-636 | with no category, an empty query and no store (or "alla"), the whole catalogue is returned |
| ProductQuery.PrototypeStoreKeepsEverything | server.js:634-636 | as written, `?store=toString` returns the whole catalogue; the intended filter returns nothing |
| ProductQuery.RunAsWritten | server.js:622-636 | as written, a `store` named like an inherited member filters nothing: the answer is the one for no store at all |
| ProductQuery.AsWrittenAgreesOffPrototype | server.js:634-636 | for every store key that is not an inherited member name, the written filter is the intended one |
| Server.RegistryWellFormed | server.js:16-50 | the four registry keys are distinct and every store has a short name |
| Server.StoreKeys | server.js:650 | `Object.keys(STORES)` lists each store's id in registry order |
| Server.IsLive | server.js:596-600 | live exactly when some settled result is fulfilled with more than three items |
| Server.ScrapeAll | server.js:591-593 | all four scrapers settle as fulfilled, because each catches its own errors |
| Server.FetchAllProducts | server.js:590-612 | fails exactly when a reference product has no prices; otherwise the cache holds the enriched reference list, stamped with the completion time, and is live exactly when some store's scraper returned more than three items |
| Server.Refresh | server.js:602-608 | a refresh fails exactly when a reference product has no prices; otherwise the new cache holds the whole enriched reference list, stamped with the completion time and the liveness flag |
| Server.CatalogueIgnoresScrapes | server.js:602-606 | the served catalogue does not depend on what the scrapers returned |
| Server.AllFetchesFailingStillRefreshes | server.js:596-608 | with every fetch failing, the refresh still completes, flagged as not live |
| Server.HandleProducts | server.js:616-642 | within 10 800 000 ms the cache is served untouched; past it, or when cold, a refresh replaces it, or on failure the old cache is kept and a 500 is returned |
| Server.FreshForExactlyThreeHours | server.js:618 | a cache exactly three hours old is still fresh; one millisecond later it is due |
| Server.RefreshDue | server.js:618 | a cold cache is always due; a warm one is due from 10 800 001 ms after `lastUpdated` on, and not before |
| Server.RepeatedQueryIsStable | server.js:618-638 | two queries inside the window get identical answers, including `lastUpdated` and order |
| Server.AnswerComesFromCache | server.js:620-638 | every answer is a subsequence of the cached catalogue and carries the cache's `lastUpdated` |
| Server.Status | server.js:646-651 | `productCount` is 0 before the first load and the catalogue's size afterwards; the stores listed are ica, maxi, willys, eurocash |
| Storefront.FormatPrice | public/app.js:56-58 | the label reads back as the same price: kronor digits without a leading zero (a lone 0 kronor aside), a colon, two öre digits, " kr", and no point left |
| Storefront.FormatPriceIsCanonical | public/app.js:56-58 | any text that reads back as the price and has no leading zero in its kronor is exactly the label `formatPrice` writes, so the contract fixes the text |
| Storefront.FormatPriceInjective | public/app.js:56-58 | different prices never get the same label |
| Storefront.StoresView | server.js:644 | the `stores` object the storefront loads has a key for exactly the registry's store ids |
| Storefront.StoreShort | public/app.js:64-66 | the short name when the store is known and has one; otherwise the id itself |
| Storefront.StoreColor | public/app.js:60-62 | the store's colour when known and non-empty, otherwise `#888`; never empty |
| Storefront.RegistryShortNames | public/app.js:64-66 | a registry store whose id no later entry repeats shows its own short name |
| Storefront.StoreShortNamesOfTheFour | public/app.js:64-66 | each of the four stores shows its registry short name |
| Storefront.CatEmoji | public/app.js:68-70 | a known category's emoji, otherwise the cart of "alla" |
| Storefront.CatLabel | public/app.js:72-74 | a known category's label, otherwise the raw key |
| Storefront.CartMeansNoOwnCategory | public/app.js:5-17 | the cart appears exactly for "alla" and for unknown categories |
| Storefront.RawKeyMeansUnknownCategory | public/app.js:5-17 | a label equals its key exactly when the category is unknown |
| Storefront.ModeOrderIsTotalPreorder | public/app.js:104-109 | each mode's comparator is a consistent total order when the collation is |
| Storefront.ModeOrder | public/app.js:102-109 | each numeric mode's "may come first" is the source's subtraction comparator being at most zero; the name mode is the collation |
| Storefront.SortProducts | public/app.js:102-110 | a permutation of the list, ascending or descending by best price, by name, or (any other mode) by non-increasing savings |
| Storefront.SortProductsKeepsTies | public/app.js:102-110 | products the mode's comparator ties keep the order of the list being sorted: the server's order when `loadProducts` sorts a fresh answer (public/app.js:93), the previous mode's order when the sort select re-sorts the shown list |
| Storefront.EqualPricesKeepListOrder | public/app.js:105-106 | under a price sort, products with the same best price keep the order of the list being sorted (the server's order for a fresh answer) |
| Storefront.SortProductsIdempotent | public/app.js:311-315 | choosing the current sort mode again changes nothing |
| Storefront.DefaultSortKeepsServerOrder | public/app.js:93 | the default savings sort of a query answer returns it exactly as the server sent it |
| Storefront.BuildParams | public/app.js:84-88 | a parameter is present exactly when it narrows (category and store not "alla", query non-empty); no key repeats; nothing else is sent |
| Storefront.ParamValue | public/app.js:90 | a key missing from the query string reads as absent; otherwise it reads as a value sent under that key |
| Storefront.OmittedParamsChangeNothing | public/app.js:84-90 | leaving out "alla" or an empty query gives the server's answer to sending them |
| Storefront.ShownAreChosen | public/app.js:84-91 | the server's answer to the storefront's request is exactly the catalogue products in the chosen category, matching the text and priced at the chosen store, in catalogue order (`sortProducts` then re-orders it, see SortProducts) |
| Scenarios.MellanmjolkEnrichment | server.js:58-67 | Mellanmjölk (14.90, 13.95, 14.50, 13.50) enriches to eurocash, 13.50, savings 1.40 |
| Scenarios.MellanmjolkLabel | public/app.js:56-58 | 13.50 is shown as "13:50 kr" |
| Scenarios.TwoStoreEnrichment | server.js:417-427 | {ica 14.90, willys 13.50} enriches to willys, 13.50, savings 1.40 |
| Scenarios.DairyAtIca | server.js:622-636 | `category=mejeri&store=ica` keeps the dairy product ICA prices and drops the one it does not |

## Left out

- Network, HTML and JSON parsing are not modelled. This covers `axios`, `cheerio`
  selectors, the `/\{[\s\S]+\}/` blob match and `JSON.parse`. A scraper receives the
  page already reduced to script blobs, `__NEXT_DATA__` lists and cards; a failed fetch
  is `None`.
- Concurrency is not modelled: `Promise.allSettled`, the 10 s timeouts, console logging
  and the start-up refresh. Every scraper catches its own errors, so all four results
  are fulfilled.
- Refresh de-duplication is not in the code, so it is not in the model.
- Merging scraped items into the catalogue is not in the code either: the reference
  list is always served. Scraped items only count toward `isLive`.
- The `DEMO_PRODUCTS` literal is not transcribed. The reference list is a parameter, and
  Mellanmjölk is entered as a worked case.
- Floating point is not modelled. Prices are whole öre, so `toFixed(2)` and the
  comparator subtractions are exact.
- Storefront.FormatPrice: only whole-öre, non-negative prices are covered.
- Storefront.SortProducts: Swedish `localeCompare` is a parameter `nameLe`, required only
  to be a total preorder.
- Text.ToLower: `toLowerCase` is modelled for ASCII and Latin-1 capitals, which cover
  Swedish, and not for the rest of Unicode. JavaScript also lowers 'Ā' (U+0100) to 'ā',
  which the model leaves as it is, and lowers 'İ' (U+0130) to two code units, which
  changes the length. A query or name with such letters can match differently.
- Scrapers.ParseFloat: JSON strings are read as digits with an optional point. Leading
  whitespace, signs, exponents and `Infinity` are not modelled. An array value such as
  `[5]`, which JavaScript would coerce to "5", is treated as NaN.
- A price map is kept in insertion order. JavaScript puts integer-like keys first, but
  store ids are never integer-like.
- Request: a parameter given twice arrives in Express as an array, and the model takes
  single strings. A repeated `q` makes `toLowerCase` throw, so the server answers 500. A
  repeated `category` compares `===` against the array and matches nothing. A repeated
  `store` reads the key "a,b" and matches nothing unless a store has that id.
- Server.HandleProducts: serves the corrected store filter `ProductQuery.Run`. As
  written, `?store=toString` or another inherited member name returns the whole
  catalogue (see Findings); `ProductQuery.AsWrittenAgreesOffPrototype` shows the two
  agree for every other store key. RepeatedQueryIsStable, AnswerComesFromCache and
  Storefront.ShownAreChosen inherit this.
- Storefront.ShownAreChosen: assumes non-empty category and store ids. The storefront's
  buttons always carry one, and an empty one is covered by OmittedParamsChangeNothing.
- `URLSearchParams` encoding and Express decoding are assumed to round-trip.
- The search input's trimming and 280 ms debounce are not modelled. The model takes the
  text as sent.
- Storefront.CatEmoji: for a category named like an inherited member (e.g.
  "constructor"), the source returns `undefined`, not the cart. Categories come from the
  catalogue, which never uses such names.
- Storefront.CatLabel: the same inherited-name case returns `undefined` in the source.
- Rendering is not modelled: the DOM, the modal, category tabs, `CATEGORY_COLORS`, and
  formatting `lastUpdated` as a time of day.

## Findings

| source | as written | input that shows it | evidently intended | confidence | as-written member | corrected member |
|---|---|---|---|---|---|---|
| server.js:634-636 | `products.filter(p => p.prices[req.query.store])` tests truthiness of a property read, and inherited `Object.prototype` members are truthy | `GET /api/products?store=toString` (also `constructor`, `valueOf`, `__proto__`, …) returns every product | keep only products with an own price entry for that store, so none here | high; not executed | ProductQuery.PrototypeStoreKeepsEverything | ProductQuery.RunIsConjunction |

The as-written filter is `ProductQuery.RunAsWritten`. The corrected filter is
`ProductQuery.Run`, which the rest of the model uses, and `RunIsConjunction` proves it is
the conjunction of the supplied criteria.

=== FILE: catalog.dfy ===
/** The server's product catalogue and `enrichProducts` (server.js). Prices are whole öre
    (13.50 kr is 1350), so the source's `toFixed(2)` rounding of the savings is exact. */
module Catalog {
  import opened Wrappers
  import opened Seqs
  import opened StableSort

  type StoreId = string

  /** One store's price for a product, in öre, and whether it is a current offer. */
  datatype PriceEntry = PriceEntry(price: nat, inOffer: bool)

  /** One `[storeKey, entry]` pair of `Object.entries(p.prices)`. */
  datatype StorePrice = StorePrice(store: StoreId, entry: PriceEntry)

  /** A catalogue product. `prices` lists the store→price object in its key order,
      which decides which store wins a tie for the lowest price. */
  datatype Product = Product(
    id: string,
    name: string,
    subtitle: Option<string>,
    category: string,
    unit: string,
    image: Option<string>,
    prices: seq<StorePrice>)

  /** A product with the three fields `enrichProducts` adds. */
  datatype EnrichedProduct = EnrichedProduct(
    product: Product,
    bestStore: StoreId,
    bestPrice: nat,
    savings: nat)

  /** `sorted[0]` is undefined for a product without prices, and reading it throws. */
  datatype DataError = EmptyPriceMap(productId: string)

  /** A JavaScript object cannot hold the same key twice. */
  predicate DistinctStores(prices: seq<StorePrice>) {
    forall i, j :: 0 <= i < j < |prices| ==> prices[i].store != prices[j].store
  }

  /** `p.prices[store]` for an own key of the price object. */
  function Lookup(prices: seq<StorePrice>, store: StoreId): (r: Option<PriceEntry>)
    ensures r.Some? <==> exists i :: 0 <= i < |prices| && prices[i].store == store
    ensures r.Some? ==> exists i :: 0 <= i < |prices| && prices[i] == StorePrice(store, r.value)
  {
    if |prices| == 0 then None
    else if prices[0].store == store then Some(prices[0].entry)
    else
      var r := Lookup(prices[1..], store);
      assert forall i :: 1 <= i < |prices| ==> prices[i] == prices[1..][i - 1];
      r
  }

  // ---------------------------------------------------------------------------
  // Reference definitions of cheapest and dearest entry

  function MinPrice(es: seq<StorePrice>): (m: nat)
    requires |es| > 0
    ensures forall i :: 0 <= i < |es| ==> m <= es[i].entry.price
    ensures exists i :: 0 <= i < |es| && es[i].entry.price == m
  {
    if |es| == 1 then es[0].entry.price
    else
      var rest := MinPrice(es[1..]);
      assert forall i :: 1 <= i < |es| ==> es[i] == es[1..][i - 1];
      if es[0].entry.price <= rest then es[0].entry.price else rest
  }

  function MaxPrice(es: seq<StorePrice>): (m: nat)
    requires |es| > 0
    ensures forall i :: 0 <= i < |es| ==> es[i].entry.price <= m
    ensures exists i :: 0 <= i < |es| && es[i].entry.price == m
  {
    if |es| == 1 then es[0].entry.price
    else
      var rest := MaxPrice(es[1..]);
      assert forall i :: 1 <= i < |es| ==> es[i] == es[1..][i - 1];
      if es[0].entry.price >= rest then es[0].entry.price else rest
  }

  /** Entry `k` has the lowest price and no earlier entry has that price. */
  predicate IsFirstCheapest(es: seq<StorePrice>, k: nat) {
    && k < |es|
    && (forall j :: 0 <= j < |es| ==> es[k].entry.price <= es[j].entry.price)
    && (forall j :: 0 <= j < k ==> es[k].entry.price < es[j].entry.price)
  }

  function CheapestIndex(es: seq<StorePrice>): (k: nat)
    requires |es| > 0
    ensures IsFirstCheapest(es, k)
  {
    if |es| == 1 then 0
    else if es[0].entry.price <= MinPrice(es[1..]) then
      assert forall i :: 1 <= i < |es| ==> es[i] == es[1..][i - 1];
      0
    else
      var k := CheapestIndex(es[1..]);
      assert forall i :: 1 <= i < |es| ==> es[i] == es[1..][i - 1];
      k + 1
  }

  /** The spread between dearest and cheapest store: what a shopper saves. */
  function Spread(es: seq<StorePrice>): nat
    requires |es| > 0
  {
    MaxPrice(es) - MinPrice(es)
  }

  /** The derived fields agree with the product's own price map. */
  predicate Consistent(e: EnrichedProduct) {
    var es := e.product.prices;
    && |es| > 0
    && e.bestPrice == MinPrice(es)
    && e.bestStore == es[CheapestIndex(es)].store
    && e.savings == Spread(es)
  }

  // ---------------------------------------------------------------------------
  // Sorting the entries by price

  /** The comparator `(a, b) => a[1].price - b[1].price`. */
  function PriceLe(a: StorePrice, b: StorePrice): bool {
    a.entry.price <= b.entry.price
  }

  /** Stable ascending sort by price puts the first cheapest entry in front. */
  lemma {:induction false} SortedHeadIsFirstCheapest(es: seq<StorePrice>)
    requires |es| > 0
    ensures TotalPreorder(PriceLe)
    ensures Sort(PriceLe, es)[0] == es[CheapestIndex(es)]
    decreases |es|
  {
    if |es| > 1 {
      var rest := es[1..];
      assert es == [es[0]] + rest;
      SortedHeadIsFirstCheapest(rest);
      var s := Sort(PriceLe, rest);
      assert s[0].entry.price == MinPrice(rest);
      assert Sort(PriceLe, es) == Insert(PriceLe, es[0], s);
    }
  }

  /** ... and a dearest entry at the back. */
  lemma SortedLastIsMax(es: seq<StorePrice>)
    requires |es| > 0
    ensures TotalPreorder(PriceLe)
    ensures Sort(PriceLe, es)[|es| - 1].entry.price == MaxPrice(es)
  {
    var j :| 0 <= j < |es| && es[j].entry.price == MaxPrice(es);
    SortedLast(PriceLe, es, j);
    var last := Sort(PriceLe, es)[|es| - 1];
    var i :| 0 <= i < |es| && es[i] == last;
    assert MaxPrice(es) <= last.entry.price <= MaxPrice(es);
  }

  /** One product of `enrichProducts`: `bestStore`/`bestPrice` from the head of the
      price-sorted entries and `savings` as the last minus the head. */
  function EnrichOne(p: Product): (r: Result<EnrichedProduct, DataError>)
    ensures r.Failure? <==> |p.prices| == 0
    ensures r.Failure? ==> r.error == EmptyPriceMap(p.id)
    ensures r.Success? ==> r.value.product == p && Consistent(r.value)
  {
    if |p.prices| == 0 then Failure(EmptyPriceMap(p.id))
    else
      SortedHeadIsFirstCheapest(p.prices);
      SortedLastIsMax(p.prices);
      var sorted := Sort(PriceLe, p.prices);
      var bestStore := sorted[0].store;
      var bestPrice := sorted[0].entry.price;
      var worstPrice := sorted[|sorted| - 1].entry.price;
      Success(EnrichedProduct(p, bestStore, bestPrice, worstPrice - bestPrice))
  }

  /** With distinct store keys, `prices[bestStore].price == bestPrice`. */
  lemma BestStoreHoldsBestPrice(e: EnrichedProduct)
    requires Consistent(e)
    requires DistinctStores(e.product.prices)
    ensures Lookup(e.product.prices, e.bestStore) == Some(PriceEntry(e.bestPrice, e.product.prices[CheapestIndex(e.product.prices)].entry.inOffer))
  {
    var es := e.product.prices;
    var k := CheapestIndex(es);
    MinIsCheapest(es);
    assert es[k].store == e.bestStore;
    var r := Lookup(es, e.bestStore);
    assert r.Some?;
    var i :| 0 <= i < |es| && es[i] == StorePrice(e.bestStore, r.value);
    DistinctStoresIndex(es, i, k);
    assert r.value == es[k].entry;
  }

  /** Two entries with the same key are the same entry. */
  lemma DistinctStoresIndex(es: seq<StorePrice>, i: nat, j: nat)
    requires DistinctStores(es)
    requires i < |es| && j < |es| && es[i].store == es[j].store
    ensures i == j
  {
    assert !(i < j) && !(j < i);
  }

  /** The reference minimum is the price of the first cheapest entry. */
  lemma MinIsCheapest(es: seq<StorePrice>)
    requires |es| > 0
    ensures MinPrice(es) == es[CheapestIndex(es)].entry.price
  {
    var k := CheapestIndex(es);
    var m := MinPrice(es);
    var a :| 0 <= a < |es| && es[a].entry.price == m;
    assert m <= es[k].entry.price <= es[a].entry.price;
  }

  // ---------------------------------------------------------------------------
  // The whole catalogue

  function ProductsOf(es: seq<EnrichedProduct>): seq<Product> {
    Map((e: EnrichedProduct) => e.product, es)
  }

  /** `products.map(...)`, which throws at the first product without prices. */
  function EnrichEach(ps: seq<Product>): (r: Result<seq<EnrichedProduct>, DataError>)
    ensures r.Failure? <==> exists i :: 0 <= i < |ps| && |ps[i].prices| == 0
    ensures r.Failure? ==>
      exists i :: 0 <= i < |ps| && |ps[i].prices| == 0 && r.error == EmptyPriceMap(ps[i].id) && (forall j :: 0 <= j < i ==> |ps[j].prices| > 0)
    ensures r.Success? ==> |r.value| == |ps|
  {
    MapResultFailure(EnrichOne, ps);
    MapResult(EnrichOne, ps)
  }

  lemma EnrichOneFacts(p: Product)
    requires EnrichOne(p).Success?
    ensures EnrichOne(p).value.product == p && Consistent(EnrichOne(p).value)
  {
  }

  lemma EnrichEachConsistent(ps: seq<Product>)
    requires EnrichEach(ps).Success?
    ensures forall i :: 0 <= i < |ps| ==> EnrichEach(ps).value[i].product == ps[i] && Consistent(EnrichEach(ps).value[i])
  {
    forall i | 0 <= i < |ps| ensures EnrichEach(ps).value[i].product == ps[i] && Consistent(EnrichEach(ps).value[i]) {
      MapResultAt(EnrichOne, ps, i);
      EnrichOneFacts(ps[i]);
    }
  }

  /** The comparator `(a, b) => b.savings - a.savings`: larger savings first. */
  function SavingsFirst(a: EnrichedProduct, b: EnrichedProduct): bool {
    a.savings >= b.savings
  }

  lemma SavingsFirstIsTotalPreorder()
    ensures TotalPreorder(SavingsFirst)
  {
  }

  /** `enrichProducts`: enrich every product, then order by savings, highest first. */
  function Enrich(ps: seq<Product>): (r: Result<seq<EnrichedProduct>, DataError>)
    ensures r.Failure? <==> exists i :: 0 <= i < |ps| && |ps[i].prices| == 0
    ensures r.Success? ==> |r.value| == |ps| && multiset(ProductsOf(r.value)) == multiset(ps)
    ensures r.Success? ==> forall i :: 0 <= i < |r.value| ==> Consistent(r.value[i])
    ensures r.Success? ==> forall i, j :: 0 <= i < j < |r.value| ==> r.value[i].savings >= r.value[j].savings
  {
    match EnrichEach(ps)
    case Failure(e) => Failure(e)
    case Success(es) =>
      SavingsFirstIsTotalPreorder();
      EnrichEachConsistent(ps);
      SortBySavingsFacts(ps, es);
      Success(Sort(SavingsFirst, es))
  }

  lemma SortBySavingsFacts(ps: seq<Product>, es: seq<EnrichedProduct>)
    requires |es| == |ps|
    requires forall i :: 0 <= i < |ps| ==> es[i].product == ps[i] && Consistent(es[i])
    ensures TotalPreorder(SavingsFirst)
    ensures multiset(ProductsOf(Sort(SavingsFirst, es))) == multiset(ps)
    ensures forall i :: 0 <= i < |es| ==> Consistent(Sort(SavingsFirst, es)[i])
  {
    SavingsFirstIsTotalPreorder();
    var sorted := Sort(SavingsFirst, es);
    assert ProductsOf(es) == ps;
    MapSortMultiset((e: EnrichedProduct) => e.product, SavingsFirst, es);
    PermutationKeepsConsistent(es, sorted);
  }

  lemma PermutationKeepsConsistent(a: seq<EnrichedProduct>, b: seq<EnrichedProduct>)
    requires multiset(a) == multiset(b)
    requires forall i :: 0 <= i < |a| ==> Consistent(a[i])
    ensures forall i :: 0 <= i < |b| ==> Consistent(b[i])
  {
    forall e | e in b ensures Consistent(e) {
      assert e in multiset(b);
      assert e in a;
    }
  }

  function HasSavings(n: nat): EnrichedProduct -> bool {
    (e: EnrichedProduct) => e.savings == n
  }

  function HasSpread(n: nat): Product -> bool {
    (p: Product) => |p.prices| > 0 && Spread(p.prices) == n
  }

  /** Stability of the catalogue order: products with equal savings keep their input order. */
  lemma EnrichKeepsTiesInInputOrder(ps: seq<Product>, n: nat)
    requires Enrich(ps).Success?
    ensures ProductsOf(Filter(Enrich(ps).value, HasSavings(n))) == Filter(ps, HasSpread(n))
  {
    var es := EnrichEach(ps).value;
    SavingsFirstIsTotalPreorder();
    EnrichEachConsistent(ps);
    SortKeepsTiedOrder(SavingsFirst, HasSavings(n), es);
    assert ProductsOf(es) == ps;
    MapFilter((e: EnrichedProduct) => e.product, es, HasSavings(n), HasSpread(n));
  }
}

=== FILE: client.dfy ===
/** The storefront's pure logic (public/app.js): price labels, registry and category
    lookups, the four sort modes and the query string sent to `/api/products`. */
module Storefront {
  import opened Wrappers
  import opened Seqs
  import opened Text
  import opened StableSort
  import opened Catalog
  import opened ProductQuery
  import Server

  // ---------------------------------------------------------------------------
  // `formatPrice`

  /** Reads a label "<kronor>:<two öre digits> kr" back into öre. */
  function ParsePriceLabel(s: string): Option<nat> {
    if |s| >= 7 && s[|s| - 3..] == " kr" && s[|s| - 6] == ':'
       && AllDigits(s[..|s| - 6]) && AllDigits(s[|s| - 5..|s| - 3])
    then Some(DigitsValue(s[..|s| - 6]) * 100 + DigitsValue(s[|s| - 5..|s| - 3]))
    else None
  }

  /** `p.toFixed(2).replace('.', ':') + ' kr'` for a price of `ore` öre: the whole
      kronor, a colon, exactly two öre digits and the currency. */
  function FormatPrice(ore: nat): (shown: string)
    ensures ParsePriceLabel(shown) == Some(ore)
    ensures forall i :: 0 <= i < |shown| ==> shown[i] != '.'
    ensures |shown| >= 7 && (shown[0] == '0' ==> shown[1] == ':')
  {
    var kronor, cents := NatToDigits(ore / 100), TwoDigits(ore % 100);
    var shown := PriceLabel(ore, ':');
    assert shown[..|shown| - 6] == kronor;
    assert shown[|shown| - 5..|shown| - 3] == cents;
    assert shown[|shown| - 3..] == " kr";
    DigitsRoundTrip(ore / 100);
    shown
  }

  /** The contract above pins the label down: any text that reads back as `ore`, has
      no leading zero in its kronor and no point is exactly `formatPrice`'s output. */
  lemma FormatPriceIsCanonical(ore: nat, s: string)
    requires ParsePriceLabel(s) == Some(ore)
    requires s[0] == '0' ==> s[1] == ':'
    ensures s == FormatPrice(ore)
  {
    var k, t := s[..|s| - 6], s[|s| - 5..|s| - 3];
    CanonicalTwoDigits(t);
    assert ore / 100 == DigitsValue(k) && ore % 100 == DigitsValue(t);
    assert |k| > 1 ==> k[1] == s[1] && k[0] == s[0];
    CanonicalDigits(k);
    assert s == k + [':'] + t + " kr";
  }

  /** Different prices never share a label. */
  lemma FormatPriceInjective(a: nat, b: nat)
    requires FormatPrice(a) == FormatPrice(b)
    ensures a == b
  {
    assert Some(a) == ParsePriceLabel(FormatPrice(a));
  }

  // ---------------------------------------------------------------------------
  // Registry and category lookups

  /** The fields of a `/api/stores` entry the storefront reads. */
  datatype StoreView = StoreView(shortName: string, color: string)

  /** The `stores` object as `/api/stores` serves the registry; a later duplicate id
      would overwrite an earlier one, as it would in the object literal. */
  function StoresView(registry: seq<Server.Store>): (view: map<StoreId, StoreView>)
    ensures forall id :: id in view <==> exists i :: 0 <= i < |registry| && registry[i].id == id
  {
    if |registry| == 0 then map[]
    else
      var last := registry[|registry| - 1];
      var view := StoresView(registry[..|registry| - 1])[last.id := StoreView(last.shortName, last.color)];
      assert forall i :: 0 <= i < |registry| - 1 ==> registry[..|registry| - 1][i] == registry[i];
      view
  }

  /** `stores[storeId]?.shortName || storeId`. An inherited name such as "toString"
      reads a function whose `shortName` is undefined, so it too falls back. */
  function StoreShort(stores: map<StoreId, StoreView>, id: StoreId): (r: string)
    ensures id !in stores || stores[id].shortName == "" ==> r == id
    ensures id in stores && stores[id].shortName != "" ==> r == stores[id].shortName
  {
    if id in stores && stores[id].shortName != "" then stores[id].shortName else id
  }

  /** `stores[storeId]?.color || '#888'`. */
  function StoreColor(stores: map<StoreId, StoreView>, id: StoreId): (r: string)
    ensures r != ""
    ensures id in stores && stores[id].color != "" ==> r == stores[id].color
    ensures !(id in stores && stores[id].color != "") ==> r == "#888"
  {
    if id in stores && stores[id].color != "" then stores[id].color else "#888"
  }

  /** With the registry loaded, every store with a short name shows it, in the
      registry's own later-wins sense. */
  lemma {:induction false} RegistryShortNames(registry: seq<Server.Store>, k: nat)
    requires k < |registry|
    requires forall i :: k < i < |registry| ==> registry[i].id != registry[k].id
    requires registry[k].shortName != ""
    ensures StoreShort(StoresView(registry), registry[k].id) == registry[k].shortName
    decreases |registry|
  {
    if k < |registry| - 1 {
      var init := registry[..|registry| - 1];
      assert init[k] == registry[k];
      RegistryShortNames(init, k);
    }
  }

  /** Each of the four stores shows its own short name. */
  lemma StoreShortNamesOfTheFour()
    ensures forall k :: 0 <= k < |Server.Stores| ==>
      StoreShort(StoresView(Server.Stores), Server.Stores[k].id) == Server.Stores[k].shortName
  {
    Server.RegistryWellFormed();
    forall k | 0 <= k < |Server.Stores|
      ensures StoreShort(StoresView(Server.Stores), Server.Stores[k].id) == Server.Stores[k].shortName
    {
      RegistryShortNames(Server.Stores, k);
    }
  }

  datatype CategoryInfo = CategoryInfo(title: string, emoji: string)

  /** `CATEGORY_META`. */
  const CategoryMeta: map<string, CategoryInfo> := map[
    "alla" := CategoryInfo("Alla", "\U{1F6D2}"),
    "mejeri" := CategoryInfo("Mejeri", "\U{1F95B}"),
    "brod" := CategoryInfo("Br\U{F6}d & bageri", "\U{1F35E}"),
    "kott" := CategoryInfo("K\U{F6}tt & fisk", "\U{1F969}"),
    "frukt" := CategoryInfo("Frukt & gr\U{F6}nt", "\U{1F34E}"),
    "torrvaror" := CategoryInfo("Torrvaror", "\U{1F33E}"),
    "dryck" := CategoryInfo("Dryck", "\U{2615}"),
    "snacks" := CategoryInfo("Snacks & godis", "\U{1F36B}"),
    "frys" := CategoryInfo("Fryst", "\U{2744}\U{FE0F}"),
    "hygien" := CategoryInfo("Hygien", "\U{1F9F4}"),
    "stad" := CategoryInfo("St\U{E4}d & hush\U{E5}ll", "\U{1F9F9}")
  ]

  /** The shopping-cart emoji of the "alla" entry. */
  const Cart := "\U{1F6D2}"

  /** `(CATEGORY_META[cat] || CATEGORY_META.alla).emoji`. */
  function CatEmoji(cat: string): (r: string)
    ensures cat in CategoryMeta ==> r == CategoryMeta[cat].emoji
    ensures cat !in CategoryMeta ==> r == Cart
  {
    if cat in CategoryMeta then CategoryMeta[cat].emoji else CategoryMeta[All].emoji
  }

  /** `(CATEGORY_META[cat] || { label: cat }).label`. */
  function CatLabel(cat: string): (r: string)
    ensures cat in CategoryMeta ==> r == CategoryMeta[cat].title
    ensures cat !in CategoryMeta ==> r == cat
  {
    if cat in CategoryMeta then CategoryMeta[cat].title else cat
  }

  /** The cart appears exactly for "alla" and for categories without an entry. */
  lemma CartMeansNoOwnCategory(cat: string)
    ensures CatEmoji(cat) == Cart <==> cat == All || cat !in CategoryMeta
  {
  }

  /** A label equals its key exactly when the key has no entry: every known category
      has a label of its own. */
  lemma RawKeyMeansUnknownCategory(cat: string)
    ensures CatLabel(cat) == cat <==> cat !in CategoryMeta
  {
  }

  // ---------------------------------------------------------------------------
  // `sortProducts`

  /** The subtraction comparators: `a.bestPrice - b.bestPrice` for "price_asc",
      `b.bestPrice - a.bestPrice` for "price_desc" and `b.savings - a.savings` otherwise. */
  function NumericCompare(mode: string, a: EnrichedProduct, b: EnrichedProduct): int {
    if mode == "price_asc" then a.bestPrice - b.bestPrice
    else if mode == "price_desc" then b.bestPrice - a.bestPrice
    else b.savings - a.savings
  }

  /** The comparator of each sort mode as "may come first": `compare(a, b) <= 0`.
      `nameLe` stands for `a.localeCompare(b, 'sv') <= 0`; any other mode sorts by
      savings, largest first. */
  function ModeOrder(mode: string, nameLe: (string, string) -> bool): (le: (EnrichedProduct, EnrichedProduct) -> bool)
    ensures mode != "name" ==> forall a, b :: le(a, b) <==> NumericCompare(mode, a, b) <= 0
    ensures mode == "name" ==> forall a, b :: le(a, b) <==> nameLe(a.product.name, b.product.name)
  {
    if mode == "price_asc" then (a: EnrichedProduct, b: EnrichedProduct) => a.bestPrice <= b.bestPrice
    else if mode == "price_desc" then (a: EnrichedProduct, b: EnrichedProduct) => b.bestPrice <= a.bestPrice
    else if mode == "name" then (a: EnrichedProduct, b: EnrichedProduct) => nameLe(a.product.name, b.product.name)
    else SavingsFirst
  }

  lemma ModeOrderIsTotalPreorder(mode: string, nameLe: (string, string) -> bool)
    requires TotalPreorder(nameLe)
    ensures TotalPreorder(ModeOrder(mode, nameLe))
  {
    var le := ModeOrder(mode, nameLe);
    if mode == "name" {
      forall a: EnrichedProduct, b: EnrichedProduct ensures le(a, b) || le(b, a) {
        assert nameLe(a.product.name, b.product.name) || nameLe(b.product.name, a.product.name);
      }
      forall a: EnrichedProduct, b: EnrichedProduct, c: EnrichedProduct | le(a, b) && le(b, c) ensures le(a, c) {
        assert nameLe(a.product.name, b.product.name) && nameLe(b.product.name, c.product.name);
      }
    }
  }

  /** `sortProducts`: a stably sorted copy of the list under the current mode. */
  function SortProducts(mode: string, list: seq<EnrichedProduct>, nameLe: (string, string) -> bool): (r: seq<EnrichedProduct>)
    requires TotalPreorder(nameLe)
    ensures |r| == |list| && multiset(r) == multiset(list)
    ensures mode == "price_asc" ==> forall i, j :: 0 <= i < j < |r| ==> r[i].bestPrice <= r[j].bestPrice
    ensures mode == "price_desc" ==> forall i, j :: 0 <= i < j < |r| ==> r[i].bestPrice >= r[j].bestPrice
    ensures mode == "name" ==> forall i, j :: 0 <= i < j < |r| ==> nameLe(r[i].product.name, r[j].product.name)
    ensures mode != "price_asc" && mode != "price_desc" && mode != "name" ==>
      forall i, j :: 0 <= i < j < |r| ==> r[i].savings >= r[j].savings
  {
    ModeOrderIsTotalPreorder(mode, nameLe);
    var r := Sort(ModeOrder(mode, nameLe), list);
    assert SortedBy(ModeOrder(mode, nameLe), r);
    r
  }

  /** Stability: products the mode's comparator calls equal keep the order of the list
      being sorted. That is the server's order when `loadProducts` sorts a fresh answer,
      and the previous mode's order when the sort select re-sorts the shown list. */
  lemma SortProductsKeepsTies(mode: string, list: seq<EnrichedProduct>, nameLe: (string, string) -> bool, p: EnrichedProduct -> bool)
    requires TotalPreorder(nameLe)
    requires Tied(ModeOrder(mode, nameLe), p)
    ensures Filter(SortProducts(mode, list, nameLe), p) == Filter(list, p)
  {
    ModeOrderIsTotalPreorder(mode, nameLe);
    SortKeepsTiedOrder(ModeOrder(mode, nameLe), p, list);
  }

  function CostsBest(price: nat): EnrichedProduct -> bool {
    (e: EnrichedProduct) => e.bestPrice == price
  }

  /** Sorting by price leaves products with the same best price in the order of the
      list being sorted: the server's order when `loadProducts` sorts a fresh answer. */
  lemma EqualPricesKeepListOrder(mode: string, list: seq<EnrichedProduct>, nameLe: (string, string) -> bool, price: nat)
    requires TotalPreorder(nameLe)
    requires mode == "price_asc" || mode == "price_desc"
    ensures Filter(SortProducts(mode, list, nameLe), CostsBest(price)) == Filter(list, CostsBest(price))
  {
    SortProductsKeepsTies(mode, list, nameLe, CostsBest(price));
  }

  /** Choosing the same sort mode again changes nothing. */
  lemma SortProductsIdempotent(mode: string, list: seq<EnrichedProduct>, nameLe: (string, string) -> bool)
    requires TotalPreorder(nameLe)
    ensures SortProducts(mode, SortProducts(mode, list, nameLe), nameLe) == SortProducts(mode, list, nameLe)
  {
    ModeOrderIsTotalPreorder(mode, nameLe);
    SortIdempotent(ModeOrder(mode, nameLe), list);
  }

  /** The default mode re-sorts by savings, which is the order the server already
      serves: a filtered catalogue comes back exactly as received. */
  lemma DefaultSortKeepsServerOrder(reference: seq<Product>, req: Request, mode: string, nameLe: (string, string) -> bool)
    requires TotalPreorder(nameLe)
    requires Enrich(reference).Success?
    requires mode != "price_asc" && mode != "price_desc" && mode != "name"
    ensures SortProducts(mode, Run(Enrich(reference).value, req), nameLe) == Run(Enrich(reference).value, req)
  {
    var catalog := Enrich(reference).value;
    SavingsFirstIsTotalPreorder();
    assert SortedBy(SavingsFirst, catalog);
    RunIsConjunction(catalog, req);
    FilterKeepsSorted(SavingsFirst, catalog, WantedBy(req));
    SortOfSortedIsIdentity(SavingsFirst, Run(catalog, req));
  }

  // ---------------------------------------------------------------------------
  // `loadProducts`: the query string

  /** `URLSearchParams` entries in insertion order. */
  type Params = seq<(string, string)>

  /** Only the narrowing choices become parameters, always in the order category, q, store. */
  function BuildParams(category: string, q: string, store: string): (params: Params)
    ensures ("category", category) in params <==> category != All
    ensures ("q", q) in params <==> q != ""
    ensures ("store", store) in params <==> store != All
    ensures forall i :: 0 <= i < |params| ==>
      params[i] == ("category", category) || params[i] == ("q", q) || params[i] == ("store", store)
    ensures forall i, j :: 0 <= i < j < |params| ==> params[i].0 != params[j].0
  {
    (if category != All then [("category", category)] else [])
    + (if q != "" then [("q", q)] else [])
    + (if store != All then [("store", store)] else [])
  }

  /** The first value given for `key`. */
  function ParamValue(params: Params, key: string): (r: Option<string>)
    ensures r.None? <==> forall i :: 0 <= i < |params| ==> params[i].0 != key
    ensures r.Some? ==> exists i :: 0 <= i < |params| && params[i] == (key, r.value)
  {
    if |params| == 0 then None
    else if params[0].0 == key then Some(params[0].1)
    else
      var r := ParamValue(params[1..], key);
      assert forall i :: 1 <= i < |params| ==> params[i] == params[1..][i - 1];
      r
  }

  /** `req.query` as the server reads the three parameters. */
  function RequestOf(params: Params): Request {
    Request(ParamValue(params, "category"), ParamValue(params, "q"), ParamValue(params, "store"))
  }

  /** Leaving a parameter out is the same, to the server, as sending the sentinel:
      the storefront's request asks for exactly its current choices. */
  lemma OmittedParamsChangeNothing(catalog: seq<EnrichedProduct>, category: string, q: string, store: string)
    ensures Run(catalog, RequestOf(BuildParams(category, q, store))) == Run(catalog, Request(Some(category), Some(q), Some(store)))
  {
    var params := BuildParams(category, q, store);
    var req := RequestOf(params);
    assert Narrows(req.category) == Narrows(Some(category)) && (Narrows(req.category) ==> Given(req.category) == category);
    assert Searches(req.q) == Searches(Some(q)) && (Searches(req.q) ==> Given(req.q) == q);
    assert Narrows(req.store) == Narrows(Some(store)) && (Narrows(req.store) ==> Given(req.store) == store);
  }

  /** What the storefront means by its three choices, written independently of the
      handler: one category or all, a case-insensitive text match or none, one store's
      price or any. */
  predicate Chosen(category: string, q: string, store: string, e: EnrichedProduct) {
    && (category == All || e.product.category == category)
    && (q == "" || MentionsLower(e, ToLower(q)))
    && (store == All || exists i :: 0 <= i < |e.product.prices| && e.product.prices[i].store == store)
  }

  function ChosenBy(category: string, q: string, store: string): EnrichedProduct -> bool {
    (e: EnrichedProduct) => Chosen(category, q, store, e)
  }

  /** The server's answer is exactly the chosen products, in catalogue order. Category
      and store ids are never empty in the storefront (its buttons carry them). */
  lemma ShownAreChosen(catalog: seq<EnrichedProduct>, category: string, q: string, store: string)
    requires category != "" && store != ""
    ensures Run(catalog, RequestOf(BuildParams(category, q, store))) == Filter(catalog, ChosenBy(category, q, store))
  {
    var req := Request(Some(category), Some(q), Some(store));
    OmittedParamsChangeNothing(catalog, category, q, store);
    RunIsConjunction(catalog, req);
    FilterExtensional(catalog, WantedBy(req), ChosenBy(category, q, store));
  }
}

=== FILE: product_query.dfy ===
/** The filter chain of `GET /api/products` (server.js): optional category, text and
    store filters applied in that order to the cached, enriched catalogue. */
module ProductQuery {
  import opened Wrappers
  import opened Seqs
  import opened Text
  import opened Catalog

  /** The query string: a missing parameter is `None`. */
  datatype Request = Request(category: Option<string>, q: Option<string>, store: Option<string>)

  /** The sentinel the storefront uses for "every category" and "every store". */
  const All := "alla"

  /** The parameter's text; only read when the parameter narrows. */
  function Given(param: Option<string>): string {
    match param
    case Some(v) => v
    case None => ""
  }

  /** `param && param !== 'alla'`: present, non-empty (so truthy), and not the sentinel. */
  predicate Narrows(param: Option<string>) {
    param.Some? && param.value != "" && param.value != All
  }

  /** `if (req.query.q)`: present and non-empty. */
  predicate Searches(param: Option<string>) {
    param.Some? && param.value != ""
  }

  /** The text test for an already lower-cased query `q`: a substring of the lower-cased
      name, or of the lower-cased subtitle when the product has a (non-empty) one. */
  predicate MentionsLower(e: EnrichedProduct, q: string) {
    || Contains(ToLower(e.product.name), q)
    || (e.product.subtitle.Some? && e.product.subtitle.value != ""
        && Contains(ToLower(e.product.subtitle.value), q))
  }

  function InCategory(c: string): EnrichedProduct -> bool {
    (e: EnrichedProduct) => e.product.category == c
  }

  function Mentions(q: string): EnrichedProduct -> bool {
    (e: EnrichedProduct) => MentionsLower(e, ToLower(q))
  }

  /** `p.prices[store]` is an entry: the store is an own key of the price object. */
  function StocksAt(store: StoreId): EnrichedProduct -> bool {
    (e: EnrichedProduct) => Lookup(e.product.prices, store).Some?
  }

  /** `products = products.filter(p)` when `active`, the list unchanged otherwise. */
  function Narrow(xs: seq<EnrichedProduct>, active: bool, p: EnrichedProduct -> bool): seq<EnrichedProduct> {
    if active then Filter(xs, p) else xs
  }

  lemma NarrowMembers(xs: seq<EnrichedProduct>, active: bool, p: EnrichedProduct -> bool)
    ensures forall i :: 0 <= i < |Narrow(xs, active, p)| ==> Narrow(xs, active, p)[i] in xs && (!active || p(Narrow(xs, active, p)[i]))
  {
    FilterMembers(xs, p);
  }

  /** The three steps of the handler, in source order. */
  function Run(catalog: seq<EnrichedProduct>, req: Request): (r: seq<EnrichedProduct>)
    ensures forall i :: 0 <= i < |r| ==> r[i] in catalog && Wanted(req, r[i])
  {
    var byCategory := Narrow(catalog, Narrows(req.category), InCategory(Given(req.category)));
    var byText := Narrow(byCategory, Searches(req.q), Mentions(Given(req.q)));
    NarrowMembers(catalog, Narrows(req.category), InCategory(Given(req.category)));
    NarrowMembers(byCategory, Searches(req.q), Mentions(Given(req.q)));
    NarrowMembers(byText, Narrows(req.store), StocksAt(Given(req.store)));
    Narrow(byText, Narrows(req.store), StocksAt(Given(req.store)))
  }

  /** What the request asks for: every supplied criterion holds; absent ones, empty
      ones and `'alla'` ask for nothing. */
  predicate Wanted(req: Request, e: EnrichedProduct) {
    && (Narrows(req.category) ==> e.product.category == req.category.value)
    && (Searches(req.q) ==> MentionsLower(e, ToLower(req.q.value)))
    && (Narrows(req.store) ==> exists i :: 0 <= i < |e.product.prices| && e.product.prices[i].store == req.store.value)
  }

  function WantedBy(req: Request): EnrichedProduct -> bool {
    (e: EnrichedProduct) => Wanted(req, e)
  }

  function Guarded(active: bool, p: EnrichedProduct -> bool): EnrichedProduct -> bool {
    (e: EnrichedProduct) => !active || p(e)
  }

  lemma NarrowIsFilter(xs: seq<EnrichedProduct>, active: bool, p: EnrichedProduct -> bool)
    ensures Narrow(xs, active, p) == Filter(xs, Guarded(active, p))
  {
    if !active {
      FilterKeepsAll(xs, Guarded(active, p));
    }
  }

  /** The chain of three filters is one filter by the conjunction of the criteria. */
  lemma RunIsConjunction(catalog: seq<EnrichedProduct>, req: Request)
    ensures Run(catalog, req) == Filter(catalog, WantedBy(req))
  {
    var g1 := Guarded(Narrows(req.category), InCategory(Given(req.category)));
    var g2 := Guarded(Searches(req.q), Mentions(Given(req.q)));
    var g3 := Guarded(Narrows(req.store), StocksAt(Given(req.store)));
    var byCategory := Narrow(catalog, Narrows(req.category), InCategory(Given(req.category)));
    var byText := Narrow(byCategory, Searches(req.q), Mentions(Given(req.q)));
    NarrowIsFilter(catalog, Narrows(req.category), InCategory(Given(req.category)));
    NarrowIsFilter(byCategory, Searches(req.q), Mentions(Given(req.q)));
    NarrowIsFilter(byText, Narrows(req.store), StocksAt(Given(req.store)));
    var g12 := (e: EnrichedProduct) => g1(e) && g2(e);
    FilterFuse(catalog, g1, g2, g12);
    FilterFuse(catalog, g12, g3, WantedBy(req));
  }

  /** Every returned product is in the catalogue and wanted; every wanted catalogue
      product is returned. */
  lemma RunKeepsExactlyTheWanted(catalog: seq<EnrichedProduct>, req: Request)
    ensures forall i :: 0 <= i < |Run(catalog, req)| ==> Run(catalog, req)[i] in catalog && Wanted(req, Run(catalog, req)[i])
    ensures forall i :: 0 <= i < |catalog| && Wanted(req, catalog[i]) ==> catalog[i] in Run(catalog, req)
  {
    RunIsConjunction(catalog, req);
    FilterMembers(catalog, WantedBy(req));
  }

  /** The result keeps the catalogue's order. */
  lemma RunIsSubsequence(catalog: seq<EnrichedProduct>, req: Request)
    ensures IsSubsequence(Run(catalog, req), catalog)
  {
    RunIsConjunction(catalog, req);
    FilterIsSubsequence(catalog, WantedBy(req));
  }

  /** The filters may run in any order: each pair of steps commutes. */
  lemma NarrowCommutes(xs: seq<EnrichedProduct>, a: bool, p: EnrichedProduct -> bool, b: bool, q: EnrichedProduct -> bool)
    ensures Narrow(Narrow(xs, a, p), b, q) == Narrow(Narrow(xs, b, q), a, p)
  {
    NarrowIsFilter(xs, a, p);
    NarrowIsFilter(xs, b, q);
    NarrowIsFilter(Narrow(xs, a, p), b, q);
    NarrowIsFilter(Narrow(xs, b, q), a, p);
    FilterCommutes(xs, Guarded(a, p), Guarded(b, q));
  }

  /** A request with nothing to narrow returns the catalogue as it is. */
  lemma NoFilterReturnsCatalogue(catalog: seq<EnrichedProduct>, req: Request)
    requires !Narrows(req.category) && !Searches(req.q) && !Narrows(req.store)
    ensures Run(catalog, req) == catalog
  {
  }

  // ---------------------------------------------------------------------------
  // The store filter as written

  /** Names every plain object inherits from `Object.prototype`; reading one of them
      off the price object yields a function (or the prototype), which is truthy. */
  const PrototypeMembers: set<string> := {
    "constructor", "hasOwnProperty", "isPrototypeOf", "propertyIsEnumerable",
    "toLocaleString", "toString", "valueOf", "__proto__",
    "__defineGetter__", "__defineSetter__", "__lookupGetter__", "__lookupSetter__"
  }

  /** `p.prices[store]` as JavaScript evaluates its truthiness: an own entry, or an
      inherited member of `Object.prototype`. */
  function StocksAtAsWritten(store: StoreId): EnrichedProduct -> bool {
    (e: EnrichedProduct) => Lookup(e.product.prices, store).Some? || store in PrototypeMembers
  }

  /** The handler exactly as written, inherited members included: a `store` named like
      an inherited member filters nothing, as if no store had been given. */
  function RunAsWritten(catalog: seq<EnrichedProduct>, req: Request): (r: seq<EnrichedProduct>)
    ensures Narrows(req.store) && req.store.value in PrototypeMembers ==> r == Run(catalog, req.(store := None))
  {
    var byCategory := Narrow(catalog, Narrows(req.category), InCategory(Given(req.category)));
    var byText := Narrow(byCategory, Searches(req.q), Mentions(Given(req.q)));
    InheritedStoreKeepsAll(byText, Given(req.store));
    Narrow(byText, Narrows(req.store), StocksAtAsWritten(Given(req.store)))
  }

  lemma InheritedStoreKeepsAll(xs: seq<EnrichedProduct>, store: StoreId)
    ensures store in PrototypeMembers ==> Filter(xs, StocksAtAsWritten(store)) == xs
  {
    if store in PrototypeMembers {
      FilterKeepsAll(xs, StocksAtAsWritten(store));
    }
  }

  /** `?store=toString` returns the whole catalogue as written, although no product is
      sold by a store of that name; the intended filter returns nothing. */
  lemma PrototypeStoreKeepsEverything(catalog: seq<EnrichedProduct>)
    requires forall i, j :: 0 <= i < |catalog| && 0 <= j < |catalog[i].product.prices| ==> catalog[i].product.prices[j].store != "toString"
    ensures RunAsWritten(catalog, Request(None, None, Some("toString"))) == catalog
    ensures Run(catalog, Request(None, None, Some("toString"))) == []
  {
    var req := Request(None, None, Some("toString"));
    FilterKeepsAll(catalog, StocksAtAsWritten("toString"));
    FilterDropsAll(catalog, StocksAt("toString"));
  }

  /** For every other store key the written filter is the intended one. */
  lemma AsWrittenAgreesOffPrototype(catalog: seq<EnrichedProduct>, req: Request)
    requires !(Narrows(req.store) && req.store.value in PrototypeMembers)
    ensures RunAsWritten(catalog, req) == Run(catalog, req)
  {
    if Narrows(req.store) {
      var byCategory := Narrow(catalog, Narrows(req.category), InCategory(Given(req.category)));
      var byText := Narrow(byCategory, Searches(req.q), Mentions(Given(req.q)));
      FilterExtensional(byText, StocksAtAsWritten(Given(req.store)), StocksAt(Given(req.store)));
    }
  }
}

=== FILE: scenarios.dfy ===
/** Worked cases on concrete catalogue data: the first reference product of
    server.js, a two-store product, and a combined category and store query. */
module Scenarios {
  import opened Wrappers
  import opened Catalog
  import opened ProductQuery
  import Storefront

  function Offer(store: StoreId, price: nat): StorePrice {
    StorePrice(store, PriceEntry(price, false))
  }

  /** "Mellanmjölk", the first product of the reference list, prices in öre. */
  const Mellanmjolk := Product("mellanmjolk-1l", "Mellanmj\U{F6}lk", Some("3% fetthalt \U{B7} 1 L"), "mejeri", "1 L", None,
    [Offer("ica", 1490), Offer("maxi", 1395), Offer("willys", 1450), Offer("eurocash", 1350)])

  /** The first cheapest entry is unique. */
  lemma FirstCheapestIsUnique(es: seq<StorePrice>, k: nat, j: nat)
    requires IsFirstCheapest(es, k) && IsFirstCheapest(es, j)
    ensures k == j
  {
    assert es[k].entry.price <= es[j].entry.price <= es[k].entry.price;
  }

  /** The enrichment of a product whose cheapest entry is `k` with price `best`,
      and whose dearest price is `worst`. */
  lemma EnrichmentOf(p: Product, k: nat, best: nat, worst: nat)
    requires IsFirstCheapest(p.prices, k) && p.prices[k].entry.price == best
    requires (exists i :: 0 <= i < |p.prices| && p.prices[i].entry.price == worst)
    requires forall i :: 0 <= i < |p.prices| ==> p.prices[i].entry.price <= worst
    ensures EnrichOne(p) == Success(EnrichedProduct(p, p.prices[k].store, best, worst - best))
  {
    var es := p.prices;
    var r := EnrichOne(p);
    var e := r.value;
    assert e.product == p && Consistent(e);
    FirstCheapestIsUnique(es, k, CheapestIndex(es));
    assert e.bestStore == es[k].store;
    var lo := MinPrice(es);
    var a :| 0 <= a < |es| && es[a].entry.price == lo;
    assert lo <= es[k].entry.price && es[k].entry.price <= es[a].entry.price;
    assert e.bestPrice == best;
    var hi := MaxPrice(es);
    var i :| 0 <= i < |es| && es[i].entry.price == worst;
    var b :| 0 <= b < |es| && es[b].entry.price == hi;
    assert worst <= hi && hi <= worst;
    assert e.savings == worst - best;
    assert e == EnrichedProduct(p, es[k].store, best, worst - best);
  }

  /** Eurocash is cheapest at 13:50 kr; ICA's 14:90 kr is 1:40 kr dearer. */
  lemma MellanmjolkEnrichment()
    ensures EnrichOne(Mellanmjolk) == Success(EnrichedProduct(Mellanmjolk, "eurocash", 1350, 140))
  {
    var es := Mellanmjolk.prices;
    assert es[0].entry.price == 1490;
    EnrichmentOf(Mellanmjolk, 3, 1350, 1490);
  }

  /** Its best price as the storefront shows it. */
  lemma MellanmjolkLabel()
    ensures Storefront.FormatPrice(1350) == "13:50 kr"
  {
  }

  /** A product priced at two stores enriches to the cheaper one and the difference. */
  lemma TwoStoreEnrichment(p: Product)
    requires p.prices == [Offer("ica", 1490), Offer("willys", 1350)]
    ensures EnrichOne(p) == Success(EnrichedProduct(p, "willys", 1350, 140))
  {
    assert p.prices[0].entry.price == 1490;
    EnrichmentOf(p, 1, 1350, 1490);
  }

  /** `?category=mejeri&store=ica` keeps the dairy product ICA sells and drops the one it does not. */
  lemma DairyAtIca(a: EnrichedProduct, b: EnrichedProduct)
    requires a.product.category == "mejeri" && b.product.category == "mejeri"
    requires Lookup(a.product.prices, "ica").Some? && Lookup(b.product.prices, "ica").None?
    ensures Run([a, b], Request(Some("mejeri"), None, Some("ica"))) == [a]
  {
    var req := Request(Some("mejeri"), None, Some("ica"));
    RunIsConjunction([a, b], req);
    assert Wanted(req, a) by {
      var e := Lookup(a.product.prices, "ica");
    }
    assert !Wanted(req, b);
    assert [a, b][1..] == [b];
  }
}

=== FILE: scrapers.dfy ===
/** What the four store scrapers of server.js do with an element or record once the
    HTML or JSON library has selected it: normalise the price text, parse it, and keep
    the item only if it has a name and a positive price. */
module Scrapers {
  import opened Wrappers
  import opened Seqs
  import opened Text

  /** The exact value `mantissa / 10^scale` of a parsed price. */
  datatype Decimal = Decimal(mantissa: nat, scale: nat)

  predicate Positive(d: Decimal) {
    d.mantissa > 0
  }

  // ---------------------------------------------------------------------------
  // Price text: `parseFloat(pText.replace(/[^0-9,]/g, '').replace(',', '.'))`

  predicate IsPriceChar(c: char) {
    IsDigit(c) || c == ','
  }

  /** `replace(/[^0-9,]/g, '')`: drop every character but digits and commas. */
  function KeepPriceChars(s: string): (r: string)
    ensures forall i :: 0 <= i < |r| ==> IsPriceChar(r[i])
    ensures IsSubsequence(r, s)
  {
    FilterMembers(s, IsPriceChar);
    FilterIsSubsequence(s, IsPriceChar);
    Filter(s, IsPriceChar)
  }

  /** Nothing but the digits and commas goes, and every one of them stays. */
  lemma KeepPriceCharsKeepsEveryPriceChar(s: string)
    ensures forall i :: 0 <= i < |s| && IsPriceChar(s[i]) ==> s[i] in KeepPriceChars(s)
    ensures forall c :: c in s && !IsPriceChar(c) ==> c !in KeepPriceChars(s)
  {
    FilterMembers(s, IsPriceChar);
  }

  /** The filter works character by character: it distributes over concatenation and
      keeps a single character exactly when it is a digit or a comma. So every
      occurrence of a digit or comma survives, as many times as it occurs. */
  lemma {:induction false} KeepPriceCharsConcat(a: string, b: string)
    ensures KeepPriceChars(a + b) == KeepPriceChars(a) + KeepPriceChars(b)
    ensures forall c :: KeepPriceChars([c]) == if IsPriceChar(c) then [c] else []
  {
    FilterConcat(a, b, IsPriceChar);
    forall c ensures KeepPriceChars([c]) == if IsPriceChar(c) then [c] else [] {
      assert [c][1..] == [];
    }
  }

  /** Index of the first comma, or `|s|` when there is none. */
  function FirstComma(s: string): (k: nat)
    ensures k <= |s|
    ensures forall j :: 0 <= j < k ==> s[j] != ','
    ensures k < |s| ==> s[k] == ','
  {
    if |s| == 0 || s[0] == ',' then 0 else 1 + FirstComma(s[1..])
  }

  /** `replace(',', '.')`: with a string pattern only the first comma is replaced. */
  function ReplaceFirstComma(s: string): (r: string)
    ensures |r| == |s|
    ensures forall i :: 0 <= i < |s| ==> r[i] == if i == FirstComma(s) then '.' else s[i]
  {
    if |s| == 0 then s
    else if s[0] == ',' then "." + s[1..]
    else [s[0]] + ReplaceFirstComma(s[1..])
  }

  /** The longest prefix of `s` made of digits. */
  function LeadingDigits(s: string): (r: string)
    ensures |r| <= |s| && r == s[..|r|] && AllDigits(r)
    ensures |r| == |s| || !IsDigit(s[|r|])
  {
    if |s| == 0 || !IsDigit(s[0]) then "" else [s[0]] + LeadingDigits(s[1..])
  }

  /** `parseFloat` on a string of digits, commas and at most one point: the longest
      prefix of the form `digits [. digits]` with at least one digit, or NaN (None). */
  function ParseFloatPrefix(s: string): (r: Option<Decimal>)
    ensures r.None? <==> !(|s| > 0 && IsDigit(s[0])) && !(|s| > 1 && s[0] == '.' && IsDigit(s[1]))
  {
    var whole := LeadingDigits(s);
    var rest := s[|whole|..];
    var frac := if |rest| > 0 && rest[0] == '.' then LeadingDigits(rest[1..]) else "";
    if |whole| + |frac| == 0 then None
    else
      DigitsValueAppend(whole, frac);
      Some(Decimal(DigitsValue(whole + frac), |frac|))
  }

  /** The price the scrapers read off a card's price text; None stands for NaN. */
  function ScrapedPrice(text: string): (r: Option<Decimal>)
    ensures var k := KeepPriceChars(text);
      r.Some? <==> (|k| > 0 && IsDigit(k[0])) || (|k| > 1 && k[0] == ',' && IsDigit(k[1]))
  {
    var k := KeepPriceChars(text);
    ReplaceFirstCommaAtStart(k);
    ParseFloatPrefix(ReplaceFirstComma(k))
  }

  /** The first two characters after `replace(',', '.')` of digits and commas. */
  lemma ReplaceFirstCommaAtStart(k: string)
    requires forall i :: 0 <= i < |k| ==> IsPriceChar(k[i])
    ensures var t := ReplaceFirstComma(k);
      && (|k| > 0 && k[0] == ',' ==> t[0] == '.' && (|k| > 1 ==> t[1] == k[1]))
      && (|k| > 0 && k[0] != ',' ==> t[0] == k[0] && IsDigit(t[0]))
  {
  }

  /** Text without a single digit parses to NaN: empty text, commas only, "kr" only. */
  lemma NoDigitsNoPrice(text: string)
    requires forall i :: 0 <= i < |text| ==> !IsDigit(text[i])
    ensures ScrapedPrice(text).None?
  {
    var kept := KeepPriceChars(text);
    FilterMembers(text, IsPriceChar);
    assert forall i :: 0 <= i < |kept| ==> kept[i] == ',';
    var s := ReplaceFirstComma(kept);
    assert forall i :: 0 <= i < |s| ==> s[i] == '.' || s[i] == ',';
  }

  lemma KeepPriceCharsOfLabel(ore: nat, sep: char)
    requires !IsDigit(sep)
    ensures var w, t := NatToDigits(ore / 100), TwoDigits(ore % 100);
      KeepPriceChars(PriceLabel(ore, sep)) == if sep == ',' then w + "," + t else w + t
  {
    var w, t := NatToDigits(ore / 100), TwoDigits(ore % 100);
    var ws := Filter(w + [sep], IsPriceChar);
    var kept := if sep == ',' then w + "," else w;
    FilterKeepsAll(w, IsPriceChar);
    FilterKeepsAll(t, IsPriceChar);
    FilterConcat(w, [sep], IsPriceChar);
    assert ws == kept;
    FilterConcat(w + [sep], t, IsPriceChar);
    assert Filter(w + [sep] + t, IsPriceChar) == kept + t;
    FilterConcat(w + [sep] + t, " kr", IsPriceChar);
    assert Filter(" kr", IsPriceChar) == [];
    assert PriceLabel(ore, sep) == w + [sep] + t + " kr";
  }

  lemma FirstCommaAfterDigits(w: string, t: string)
    requires AllDigits(w)
    ensures FirstComma(w + "," + t) == |w|
  {
    var s := w + "," + t;
    assert s[|w|] == ',';
    assert forall j :: 0 <= j < |w| ==> s[j] == w[j];
  }

  lemma ReplaceCommaOfLabel(w: string, t: string)
    requires AllDigits(w) && AllDigits(t)
    ensures ReplaceFirstComma(w + "," + t) == w + "." + t
  {
    var s := w + "," + t;
    FirstCommaAfterDigits(w, t);
    var r, e := ReplaceFirstComma(s), w + "." + t;
    forall i | 0 <= i < |r| ensures r[i] == e[i] {
      if i < |w| {
        assert r[i] == s[i] == w[i] == e[i];
      } else if i > |w| {
        assert r[i] == s[i] == t[i - |w| - 1] == e[i];
      }
    }
  }

  /** `parseFloat` reads a whole part, a point, and the fraction's leading digits. */
  lemma ParseWholePointFrac(s: string, whole: string, frac: string)
    requires LeadingDigits(s) == whole && |whole| > 0
    requires |s| > |whole| && s[|whole|] == '.'
    requires LeadingDigits(s[|whole| + 1..]) == frac
    ensures ParseFloatPrefix(s) == Some(Decimal(DigitsValue(whole + frac), |frac|))
  {
    var rest := s[|whole|..];
    assert rest[0] == '.';
    assert rest[1..] == s[|whole| + 1..];
  }

  lemma ParseDigitsPointDigits(w: string, t: string)
    requires AllDigits(w) && AllDigits(t) && |w| > 0
    ensures AllDigits(w + t)
    ensures ParseFloatPrefix(w + "." + t) == Some(Decimal(DigitsValue(w + t), |t|))
  {
    DigitsValueAppend(w, t);
    var s := w + "." + t;
    assert s == w + ("." + t);
    LeadingDigitsOfDigitsThen(w, "." + t);
    assert s[|w| + 1..] == t;
    LeadingDigitsAll(t);
    ParseWholePointFrac(s, w, t);
  }

  lemma ParseDigits(w: string)
    requires AllDigits(w) && |w| > 0
    ensures ParseFloatPrefix(w) == Some(Decimal(DigitsValue(w), 0))
  {
    LeadingDigitsAll(w);
    assert w + "" == w;
  }

  /** A Swedish shelf label "13,50 kr" is read back exactly: 2 decimals, mantissa in öre. */
  lemma CommaLabelRoundTrip(ore: nat)
    ensures ScrapedPrice(PriceLabel(ore, ',')) == Some(Decimal(ore, 2))
  {
    var w, t := NatToDigits(ore / 100), TwoDigits(ore % 100);
    KeepPriceCharsOfLabel(ore, ',');
    ReplaceCommaOfLabel(w, t);
    ParseDigitsPointDigits(w, t);
    LabelDigitsValue(ore);
  }

  /** Any other separator is stripped, so "29:90 kr" (the storefront's own style) or
      "29.90 kr" reads as 2990 kronor: the öre digits become whole kronor. */
  lemma OtherSeparatorReadsAsKronor(ore: nat, sep: char)
    requires !IsDigit(sep) && sep != ','
    ensures ScrapedPrice(PriceLabel(ore, sep)) == Some(Decimal(ore, 0))
  {
    var w, t := NatToDigits(ore / 100), TwoDigits(ore % 100);
    KeepPriceCharsOfLabel(ore, sep);
    LabelDigitsValue(ore);
    assert ',' !in w + t by {
      assert forall i :: 0 <= i < |w + t| ==> IsDigit((w + t)[i]);
    }
    assert ReplaceFirstComma(w + t) == w + t;
    ParseDigits(w + t);
  }

  lemma {:induction false} LeadingDigitsOfDigitsThen(a: string, b: string)
    requires AllDigits(a)
    requires |b| > 0 && !IsDigit(b[0])
    ensures LeadingDigits(a + b) == a
    decreases |a|
  {
    if |a| > 0 {
      assert (a + b)[1..] == a[1..] + b;
      LeadingDigitsOfDigitsThen(a[1..], b);
      assert a == [a[0]] + a[1..];
    } else {
      assert a + b == b;
    }
  }

  lemma {:induction false} LeadingDigitsAll(s: string)
    requires AllDigits(s)
    ensures LeadingDigits(s) == s
    decreases |s|
  {
    if |s| > 0 {
      LeadingDigitsAll(s[1..]);
    }
  }

  // ---------------------------------------------------------------------------
  // HTML cards

  /** An offer/product element after selection: its trimmed title text, its trimmed
      price text and the `src` of its first image, if any. */
  datatype Card = Card(name: string, priceText: string, imageSrc: Option<string>)

  /** ICA, Willys and Eurocash need a non-empty name; Maxi needs `name.length > 2`. */
  datatype NameRule = NonEmptyName | LongerThanTwo

  /** `String.prototype.length` counts UTF-16 code units: a character outside the Basic
      Multilingual Plane is a surrogate pair and counts twice. */
  function Utf16Length(s: string): (n: nat)
    ensures |s| <= n <= 2 * |s|
  {
    if |s| == 0 then 0 else (if s[0] as int > 0xFFFF then 2 else 1) + Utf16Length(s[1..])
  }

  /** Within the Basic Multilingual Plane, which covers Swedish text, the JavaScript
      length is the number of characters. */
  lemma {:induction false} Utf16LengthOfBmp(s: string)
    requires forall i :: 0 <= i < |s| ==> s[i] as int <= 0xFFFF
    ensures Utf16Length(s) == |s|
  {
    if |s| > 0 {
      Utf16LengthOfBmp(s[1..]);
    }
  }

  /** An emoji is two code units: "A" followed by a red apple has length 3 and passes
      Maxi's length test, though it is two characters. */
  lemma AstralCharCountsTwice()
    ensures Utf16Length("A\U{1F34E}") == 3
    ensures NameOk(LongerThanTwo, "A\U{1F34E}")
  {
    assert "A\U{1F34E}"[1..] == "\U{1F34E}";
    assert "\U{1F34E}"[1..] == "";
  }

  predicate NameOk(rule: NameRule, name: string) {
    match rule
    case NonEmptyName => |name| > 0
    case LongerThanTwo => Utf16Length(name) > 2
  }

  /** A JavaScript value as far as the scrapers look at it. */
  datatype JsValue =
    | JsUndefined
    | JsNull
    | JsBool(b: bool)
    | JsNumber(negative: bool, magnitude: Decimal)
    | JsString(s: string)
    | JsObject

  /** ToBoolean (section 7.1.2 of ECMAScript 2024): `undefined`, `null`, `false`,
      `+0`/`-0` and the empty string are falsy; every object is truthy. */
  predicate Truthy(v: JsValue) {
    match v
    case JsUndefined => false
    case JsNull => false
    case JsBool(b) => b
    case JsNumber(_, m) => m.mantissa > 0
    case JsString(s) => s != ""
    case JsObject => true
  }

  /** One scraped item; `inOffer` is always true in the source. */
  datatype ScrapedItem = ScrapedItem(name: JsValue, price: Decimal, image: JsValue, inOffer: bool)

  /** `$(el).find('img').first().attr('src') || null`. */
  function ImageOf(src: Option<string>): JsValue {
    if src.Some? && src.value != "" then JsString(src.value) else JsNull
  }

  /** `name && !isNaN(price) && price > 0`, plus Maxi's length test. */
  predicate CardAccepted(rule: NameRule, c: Card) {
    var price := ScrapedPrice(c.priceText);
    NameOk(rule, c.name) && price.Some? && Positive(price.value)
  }

  /** A card labelled "kr,öö kr" is accepted exactly when the price is above zero, and
      its item carries that price. */
  lemma ShelfLabelCardAccepted(rule: NameRule, name: string, ore: nat, image: Option<string>)
    requires NameOk(rule, name)
    ensures CardAccepted(rule, Card(name, PriceLabel(ore, ','), image)) <==> ore > 0
    ensures CardItem(Card(name, PriceLabel(ore, ','), image)).price == Decimal(ore, 2)
  {
    CommaLabelRoundTrip(ore);
  }

  /** The item pushed for an accepted card. */
  function CardItem(c: Card): ScrapedItem {
    var price := match ScrapedPrice(c.priceText) case Some(d) => d case None => Decimal(0, 0);
    ScrapedItem(JsString(c.name), price, ImageOf(c.imageSrc), true)
  }

  function AcceptedBy(rule: NameRule): Card -> bool {
    (c: Card) => CardAccepted(rule, c)
  }

  /** The `.each` loop over selected cards. */
  function ExtractCards(cards: seq<Card>, rule: NameRule): (r: seq<ScrapedItem>)
    ensures |r| <= |cards|
    ensures forall i :: 0 <= i < |r| ==> r[i].inOffer && Positive(r[i].price) && r[i].name.JsString? && NameOk(rule, r[i].name.s)
  {
    if |cards| == 0 then []
    else
      var rest := ExtractCards(cards[1..], rule);
      if CardAccepted(rule, cards[0]) then [CardItem(cards[0])] + rest else rest
  }

  /** The loop keeps exactly the accepted cards, in page order. */
  lemma {:induction false} ExtractCardsIsFilterThenMap(cards: seq<Card>, rule: NameRule)
    ensures ExtractCards(cards, rule) == Map(CardItem, Filter(cards, AcceptedBy(rule)))
    decreases |cards|
  {
    if |cards| > 0 {
      ExtractCardsIsFilterThenMap(cards[1..], rule);
      var head := if CardAccepted(rule, cards[0]) then [cards[0]] else [];
      MapConcat(CardItem, head, Filter(cards[1..], AcceptedBy(rule)));
    }
  }

  // ---------------------------------------------------------------------------
  // Embedded JSON records

  /** The own fields of a parsed JSON object. */
  type JsRecord = map<string, JsValue>

  function Get(o: JsRecord, key: string): JsValue {
    if key in o then o[key] else JsUndefined
  }

  /** `o[k0] || o[k1] || ... || fallback`. */
  function FirstTruthy(o: JsRecord, keys: seq<string>, fallback: JsValue): (r: JsValue)
    ensures (exists k :: 0 <= k < |keys| && Truthy(Get(o, keys[k]))) ==>
      exists k :: 0 <= k < |keys| && Truthy(Get(o, keys[k])) && r == Get(o, keys[k])
            && forall j :: 0 <= j < k ==> !Truthy(Get(o, keys[j]))
    ensures (forall k :: 0 <= k < |keys| ==> !Truthy(Get(o, keys[k]))) ==> r == fallback
  {
    if |keys| == 0 then fallback
    else if Truthy(Get(o, keys[0])) then Get(o, keys[0])
    else
      assert forall k :: 1 <= k < |keys| ==> keys[k] == keys[1..][k - 1];
      FirstTruthy(o, keys[1..], fallback)
  }

  /** `parseFloat(v)`: a number is itself; a string is read by its leading digits;
      `true`, `null`, `undefined` and objects give NaN. */
  function ParseFloat(v: JsValue): (r: Option<(bool, Decimal)>)
    ensures r.Some? <==> (v.JsNumber? || (v.JsString? && |v.s| > 0
                          && (IsDigit(v.s[0]) || (|v.s| > 1 && v.s[0] == '.' && IsDigit(v.s[1])))))
    ensures v.JsNumber? ==> r == Some((v.negative, v.magnitude))
    ensures v.JsString? && r.Some? ==> !r.value.0
  {
    match v
    case JsNumber(neg, m) => Some((neg, m))
    case JsString(s) =>
      (match ParseFloatPrefix(s)
       case Some(d) => Some((false, d))
       case None => None)
    case _ => None
  }

  /** A JSON price string "13.50" is read exactly as 1350/100. */
  lemma JsonPriceStringParses(ore: nat)
    ensures ParseFloat(JsString(NatToDigits(ore / 100) + "." + TwoDigits(ore % 100))) == Some((false, Decimal(ore, 2)))
  {
    var w, t := NatToDigits(ore / 100), TwoDigits(ore % 100);
    ParseDigitsPointDigits(w, t);
    LabelDigitsValue(ore);
  }

  /** Which record fields a store's JSON loop consults, in `||` order. */
  datatype FieldChains = FieldChains(priceKeys: seq<string>, nameKeys: seq<string>, imageKeys: seq<string>)

  /** ICA: `o.price || o.currentPrice || 0`, `o.name`, `o.image || null`. */
  const IcaFields := FieldChains(["price", "currentPrice"], ["name"], ["image"])

  /** Willys: `o.price || o.currentPrice || o.priceValue || 0`, `o.name || o.title`,
      `o.image || o.imageUrl || null`. */
  const WillysFields := FieldChains(["price", "currentPrice", "priceValue"], ["name", "title"], ["image", "imageUrl"])

  const Zero := JsNumber(false, Decimal(0, 0))

  function OfferPrice(o: JsRecord, f: FieldChains): Option<(bool, Decimal)> {
    ParseFloat(FirstTruthy(o, f.priceKeys, Zero))
  }

  /** `price > 0`: NaN, zero and negative numbers all fail. */
  predicate PriceAboveZero(price: Option<(bool, Decimal)>) {
    price.Some? && !price.value.0 && Positive(price.value.1)
  }

  /** Some field of the record's name chain is truthy. */
  predicate HasName(o: JsRecord, f: FieldChains) {
    exists k :: 0 <= k < |f.nameKeys| && Truthy(Get(o, f.nameKeys[k]))
  }

  /** `o.name` (ICA) or `o.name || o.title` (Willys): the last field is the fallback,
      so the name is truthy exactly when one of the fields is. */
  function OfferName(o: JsRecord, f: FieldChains): (r: JsValue)
    ensures Truthy(r) <==> HasName(o, f)
  {
    FirstTruthy(o, f.nameKeys, if |f.nameKeys| > 0 then Get(o, f.nameKeys[|f.nameKeys| - 1]) else JsUndefined)
  }

  /** The item pushed for a record: its name, its price and its image or `null`. */
  function OfferItem(o: JsRecord, f: FieldChains): ScrapedItem {
    var price := match OfferPrice(o, f) case Some((_, d)) => d case None => Decimal(0, 0);
    ScrapedItem(OfferName(o, f), price, FirstTruthy(o, f.imageKeys, JsNull), true)
  }

  /** `if (name && price > 0) products.push(...)`. */
  function AcceptOffer(o: JsRecord, f: FieldChains): (r: Option<ScrapedItem>)
    ensures r.Some? <==> HasName(o, f) && PriceAboveZero(OfferPrice(o, f))
    ensures r.Some? ==> r.value == OfferItem(o, f)
    ensures r.Some? ==> r.value.inOffer && Positive(r.value.price) && Truthy(r.value.name)
  {
    if Truthy(OfferName(o, f)) && PriceAboveZero(OfferPrice(o, f)) then Some(OfferItem(o, f)) else None
  }

  /** An element of a parsed array as the `forEach` callback receives it: `null` or
      `undefined`, on which reading `o.price` throws, or any other value. A number, a
      string or an array has none of the fields read, so it acts as an empty record. */
  datatype JsElement = Nullish | Element(fields: JsRecord)

  /** `offers.forEach(...)`: the items pushed before the loop ends or throws. A `null`
      element throws a TypeError; the enclosing `catch` keeps what was already pushed
      and skips the rest of the array. */
  function ExtractOffers(es: seq<JsElement>, f: FieldChains): (r: seq<ScrapedItem>)
    ensures |r| <= |es|
    ensures forall i :: 0 <= i < |r| ==> r[i].inOffer && Positive(r[i].price)
  {
    if |es| == 0 || es[0].Nullish? then []
    else
      var rest := ExtractOffers(es[1..], f);
      var here := AcceptOffer(es[0].fields, f);
      if here.Some? then [here.value] + rest else rest
  }

  /** The records the loop reaches: every element before the first `null`. */
  function RecordsBeforeNullish(es: seq<JsElement>): (r: seq<JsRecord>)
    ensures |r| <= |es|
    ensures forall i :: 0 <= i < |r| ==> es[i] == Element(r[i])
    ensures |r| == |es| || es[|r|].Nullish?
  {
    if |es| == 0 || es[0].Nullish? then []
    else
      var rest := RecordsBeforeNullish(es[1..]);
      assert forall i :: 0 <= i < |rest| ==> es[i + 1] == es[1..][i];
      [es[0].fields] + rest
  }

  function OfferAccepted(f: FieldChains): JsRecord -> bool {
    (o: JsRecord) => AcceptOffer(o, f).Some?
  }

  function OfferItemOf(f: FieldChains): JsRecord -> ScrapedItem {
    (o: JsRecord) => OfferItem(o, f)
  }

  /** The loop pushes the items of exactly the accepted records it reaches, in array
      order; nothing after a `null` element. */
  lemma {:induction false} ExtractOffersKeepsAccepted(es: seq<JsElement>, f: FieldChains)
    ensures ExtractOffers(es, f) == Map(OfferItemOf(f), Filter(RecordsBeforeNullish(es), OfferAccepted(f)))
    ensures |ExtractOffers(es, f)| == |Filter(RecordsBeforeNullish(es), OfferAccepted(f))|
    decreases |es|
  {
    if |es| > 0 && es[0].Element? {
      var o := es[0].fields;
      ExtractOffersKeepsAccepted(es[1..], f);
      var rs := RecordsBeforeNullish(es[1..]);
      assert RecordsBeforeNullish(es) == [o] + rs;
      assert Filter([o] + rs, OfferAccepted(f)) == (if AcceptOffer(o, f).Some? then [o] else []) + Filter(rs, OfferAccepted(f));
      MapConcat(OfferItemOf(f), if AcceptOffer(o, f).Some? then [o] else [], Filter(rs, OfferAccepted(f)));
    }
  }

  /** Items pushed before a `null` element survive it; nothing after it is read. */
  lemma {:induction false} NullishEndsTheArray(before: seq<JsElement>, after: seq<JsElement>, f: FieldChains)
    requires forall i :: 0 <= i < |before| ==> before[i].Element?
    ensures ExtractOffers(before + [Nullish] + after, f) == ExtractOffers(before, f)
    decreases |before|
  {
    var es := before + [Nullish] + after;
    if |before| == 0 {
      assert es[0] == Nullish;
    } else {
      assert es[0] == before[0];
      assert es[1..] == before[1..] + [Nullish] + after;
      NullishEndsTheArray(before[1..], after, f);
    }
  }

  /** A list-valued field of a parsed object: falsy (missing, `null`, `false`, `0`,
      `""`), an array, or a truthy value that is not an array and has no `forEach`. */
  datatype JsList = Falsy | Array(elements: seq<JsElement>) | NotArray

  /** Index of the first truthy field, or `|lists|` when none is. */
  function FirstTruthyList(lists: seq<JsList>): (k: nat)
    ensures k <= |lists|
    ensures forall j :: 0 <= j < k ==> lists[j].Falsy?
    ensures k < |lists| ==> !lists[k].Falsy?
  {
    if |lists| == 0 || !lists[0].Falsy? then 0 else 1 + FirstTruthyList(lists[1..])
  }

  /** `a || b || []`: the first truthy field, an array even when empty; `[]` when none is. */
  function FirstList(lists: seq<JsList>): (r: JsList)
    ensures (forall k :: 0 <= k < |lists| ==> lists[k].Falsy?) ==> r == Array([])
    ensures forall k :: 0 <= k < |lists| && !lists[k].Falsy? && (forall j :: 0 <= j < k ==> lists[j].Falsy?) ==> r == lists[k]
  {
    var k := FirstTruthyList(lists);
    if k < |lists| then lists[k] else Array([])
  }

  /** `offers.forEach(...)` on the chosen field: a non-array throws before pushing
      anything; an array yields the items of its accepted records, in order, up to the
      first `null` element. */
  function ForEachOffer(list: JsList, f: FieldChains): (r: seq<ScrapedItem>)
    ensures !list.Array? ==> r == []
    ensures list.Array? ==> r == Map(OfferItemOf(f), Filter(RecordsBeforeNullish(list.elements), OfferAccepted(f)))
    ensures forall i :: 0 <= i < |r| ==> r[i].inOffer && Positive(r[i].price)
  {
    match list
    case Array(es) =>
      ExtractOffersKeepsAccepted(es, f);
      ExtractOffers(es, f)
    case _ => []
  }

  /** One `<script>` of ICA's page: `Ignored` when it mentions neither `"offers"` nor
      `"products"` or its `{...}` blob does not parse (the `catch` swallows that). */
  datatype ScriptBlob = Ignored | Blob(offers: JsList, products: JsList)

  /** `nextData?.props?.pageProps`, reduced to the three lists Willys reads. */
  datatype PageProps = PageProps(offers: JsList, products: JsList, weeklyOffers: JsList)

  /** What a scraper sees of a fetched page once the HTML library has selected the
      script blobs, the `#__NEXT_DATA__` payload and the store's product cards. */
  datatype Page = Page(scripts: seq<ScriptBlob>, nextData: Option<PageProps>, cards: seq<Card>)

  /** One script's contribution: `data.offers || data.products || []`, looped over. A
      non-array field throws, and the `catch` drops the script; an ignored script adds
      nothing. */
  function BlobItems(b: ScriptBlob): (r: seq<ScrapedItem>)
    ensures b.Ignored? ==> r == []
    ensures b.Blob? && !FirstList([b.offers, b.products]).Array? ==> r == []
    ensures b.Blob? && FirstList([b.offers, b.products]).Array? ==>
      r == Map(OfferItemOf(IcaFields), Filter(RecordsBeforeNullish(FirstList([b.offers, b.products]).elements), OfferAccepted(IcaFields)))
    ensures forall i :: 0 <= i < |r| ==> r[i].inOffer && Positive(r[i].price)
  {
    match b
    case Ignored => []
    case Blob(offers, products) => ForEachOffer(FirstList([offers, products]), IcaFields)
  }

  /** The ICA JSON strategy: every relevant script contributes its accepted offers to
      the one `products` array, in script order. */
  function IcaJsonItems(scripts: seq<ScriptBlob>): (r: seq<ScrapedItem>)
    ensures |scripts| == 1 ==> r == BlobItems(scripts[0])
    ensures forall i :: 0 <= i < |r| ==> r[i].inOffer && Positive(r[i].price)
  {
    if |scripts| == 0 then []
    else BlobItems(scripts[0]) + IcaJsonItems(scripts[1..])
  }

  /** Scripts push into one shared array: the items of a page's scripts are those of
      its first scripts followed by those of the rest. */
  lemma {:induction false} IcaJsonItemsConcat(a: seq<ScriptBlob>, b: seq<ScriptBlob>)
    ensures IcaJsonItems(a + b) == IcaJsonItems(a) + IcaJsonItems(b)
    decreases |a|
  {
    if |a| == 0 {
      assert a + b == b;
    } else {
      assert (a + b)[0] == a[0];
      assert (a + b)[1..] == a[1..] + b;
      IcaJsonItemsConcat(a[1..], b);
    }
  }

  /** The Willys JSON strategy: `offers || products || weeklyOffers || []`. */
  function WillysJsonItems(nextData: Option<PageProps>): (r: seq<ScrapedItem>)
    ensures nextData.None? ==> r == []
    ensures nextData.Some? && !WillysList(nextData.value).Array? ==> r == []
    ensures nextData.Some? && WillysList(nextData.value).Array? ==>
      r == Map(OfferItemOf(WillysFields), Filter(RecordsBeforeNullish(WillysList(nextData.value).elements), OfferAccepted(WillysFields)))
    ensures forall i :: 0 <= i < |r| ==> r[i].inOffer && Positive(r[i].price)
  {
    match nextData
    case None => []
    case Some(pp) => ForEachOffer(WillysList(pp), WillysFields)
  }

  /** The list the Willys loop runs over. */
  function WillysList(pp: PageProps): JsList {
    FirstList([pp.offers, pp.products, pp.weeklyOffers])
  }

  /** The layered strategy: structured data first, the card scan only when it gave nothing. */
  function Layered(json: seq<ScrapedItem>, cards: seq<Card>): seq<ScrapedItem> {
    if |json| > 0 then json else ExtractCards(cards, NonEmptyName)
  }

  /** `scrapeICA`; a failed fetch (or any thrown error) yields `[]`. */
  function ScrapeIca(page: Option<Page>): (r: seq<ScrapedItem>)
    ensures page.None? ==> r == []
    ensures page.Some? && |IcaJsonItems(page.value.scripts)| > 0 ==> r == IcaJsonItems(page.value.scripts)
    ensures page.Some? && |IcaJsonItems(page.value.scripts)| == 0 ==>
      r == Map(CardItem, Filter(page.value.cards, AcceptedBy(NonEmptyName)))
    ensures forall i :: 0 <= i < |r| ==> r[i].inOffer && Positive(r[i].price)
  {
    match page
    case None => []
    case Some(p) =>
      ExtractCardsIsFilterThenMap(p.cards, NonEmptyName);
      Layered(IcaJsonItems(p.scripts), p.cards)
  }

  /** `scrapeWillys`. */
  function ScrapeWillys(page: Option<Page>): (r: seq<ScrapedItem>)
    ensures page.None? ==> r == []
    ensures page.Some? && |WillysJsonItems(page.value.nextData)| > 0 ==> r == WillysJsonItems(page.value.nextData)
    ensures page.Some? && |WillysJsonItems(page.value.nextData)| == 0 ==>
      r == Map(CardItem, Filter(page.value.cards, AcceptedBy(NonEmptyName)))
    ensures forall i :: 0 <= i < |r| ==> r[i].inOffer && Positive(r[i].price)
  {
    match page
    case None => []
    case Some(p) =>
      ExtractCardsIsFilterThenMap(p.cards, NonEmptyName);
      Layered(WillysJsonItems(p.nextData), p.cards)
  }

  /** `scrapeMaxiNordby`: cards only, names longer than two UTF-16 units. */
  function ScrapeMaxi(page: Option<Page>): (r: seq<ScrapedItem>)
    ensures page.None? ==> r == []
    ensures page.Some? ==> r == Map(CardItem, Filter(page.value.cards, AcceptedBy(LongerThanTwo)))
    ensures forall i :: 0 <= i < |r| ==> r[i].inOffer && Positive(r[i].price)
  {
    match page
    case None => []
    case Some(p) =>
      ExtractCardsIsFilterThenMap(p.cards, LongerThanTwo);
      ExtractCards(p.cards, LongerThanTwo)
  }

  /** `scrapeEurocash`: cards only. */
  function ScrapeEurocash(page: Option<Page>): (r: seq<ScrapedItem>)
    ensures page.None? ==> r == []
    ensures page.Some? ==> r == Map(CardItem, Filter(page.value.cards, AcceptedBy(NonEmptyName)))
    ensures forall i :: 0 <= i < |r| ==> r[i].inOffer && Positive(r[i].price)
  {
    match page
    case None => []
    case Some(p) =>
      ExtractCardsIsFilterThenMap(p.cards, NonEmptyName);
      ExtractCards(p.cards, NonEmptyName)
  }

  /** The card scan runs only when the structured data produced nothing; with neither,
      the result is empty rather than an error. */
  lemma CardFallbackOnlyWhenJsonEmpty(json: seq<ScrapedItem>, cards: seq<Card>)
    ensures |json| > 0 ==> Layered(json, cards) == json
    ensures |json| == 0 ==> Layered(json, cards) == Map(CardItem, Filter(cards, AcceptedBy(NonEmptyName)))
    ensures |json| == 0 && |cards| == 0 ==> Layered(json, cards) == []
  {
    ExtractCardsIsFilterThenMap(cards, NonEmptyName);
  }

  /** The empty-array quirk of `offers || products`: a present but empty `offers`
      hides a non-empty `products`. */
  lemma EmptyOffersHideProducts(products: seq<JsElement>)
    ensures IcaJsonItems([Blob(Array([]), Array(products))]) == []
  {
  }

  /** A truthy `offers` that is not an array makes `forEach` throw: Willys then pushes
      nothing from the JSON, never looks at `products`, and falls back to the cards. */
  lemma NonArrayOffersFallBackToCards(scripts: seq<ScriptBlob>, products: JsList, weekly: JsList, cards: seq<Card>)
    ensures ScrapeWillys(Some(Page(scripts, Some(PageProps(NotArray, products, weekly)), cards)))
      == Map(CardItem, Filter(cards, AcceptedBy(NonEmptyName)))
  {
    assert FirstList([NotArray, products, weekly]) == NotArray;
  }

  /** A record whose `price` is missing, zero or empty text falls back to `currentPrice`. */
  lemma PriceFallsBackToCurrentPrice(o: JsRecord, f: FieldChains)
    requires |f.priceKeys| >= 2 && f.priceKeys[0] == "price" && f.priceKeys[1] == "currentPrice"
    requires !Truthy(Get(o, "price")) && Truthy(Get(o, "currentPrice"))
    ensures OfferPrice(o, f) == ParseFloat(Get(o, "currentPrice"))
  {
  }
}

=== FILE: seqs.dfy ===
/** Order-preserving operations on sequences: `Array.prototype.filter`, `map`,
    and the subsequence relation they establish. */
module Seqs {
  import opened Wrappers

  /** Keeps, in their original order, the elements of `xs` that satisfy `p`. */
  function Filter<T>(xs: seq<T>, p: T -> bool): (r: seq<T>)
    ensures |r| <= |xs|
  {
    if |xs| == 0 then []
    else (if p(xs[0]) then [xs[0]] else []) + Filter(xs[1..], p)
  }

  /** Exactly the elements of `xs` satisfying `p` survive a filter. */
  lemma {:induction false} FilterMembers<T>(xs: seq<T>, p: T -> bool)
    ensures forall i :: 0 <= i < |Filter(xs, p)| ==> Filter(xs, p)[i] in xs && p(Filter(xs, p)[i])
    ensures forall i :: 0 <= i < |xs| && p(xs[i]) ==> xs[i] in Filter(xs, p)
    decreases |xs|
  {
    if |xs| > 0 {
      FilterMembers(xs[1..], p);
      var r := Filter(xs, p);
      var t := Filter(xs[1..], p);
      if p(xs[0]) {
        assert r == [xs[0]] + t;
        forall i | 0 <= i < |r| ensures r[i] in xs && p(r[i]) {
          if i > 0 { assert r[i] == t[i - 1]; }
        }
      } else {
        assert r == t;
      }
      forall i | 0 <= i < |xs| && p(xs[i]) ensures xs[i] in r {
        if i > 0 { assert xs[i] == xs[1..][i - 1]; }
      }
    }
  }

  /** Applies `f` to every element, keeping positions. */
  function Map<T, U>(f: T -> U, xs: seq<T>): (r: seq<U>)
    ensures |r| == |xs|
    ensures forall i :: 0 <= i < |xs| ==> r[i] == f(xs[i])
  {
    if |xs| == 0 then [] else [f(xs[0])] + Map(f, xs[1..])
  }

  /** `a` can be obtained from `b` by deleting elements (greedy left-to-right match). */
  predicate IsSubsequence<T(==)>(a: seq<T>, b: seq<T>)
    decreases |b|
  {
    if |a| == 0 then true
    else if |b| == 0 then false
    else if a[0] == b[0] then IsSubsequence(a[1..], b[1..])
    else IsSubsequence(a, b[1..])
  }

  lemma {:induction false} FilterConcat<T>(a: seq<T>, b: seq<T>, p: T -> bool)
    ensures Filter(a + b, p) == Filter(a, p) + Filter(b, p)
    decreases |a|
  {
    if |a| == 0 {
      assert a + b == b;
    } else {
      var ab := a + b;
      assert ab[0] == a[0];
      assert ab[1..] == a[1..] + b;
      FilterConcat(a[1..], b, p);
      var h := if p(a[0]) then [a[0]] else [];
      calc {
        Filter(ab, p);
        h + Filter(a[1..] + b, p);
        h + (Filter(a[1..], p) + Filter(b, p));
        (h + Filter(a[1..], p)) + Filter(b, p);
      }
    }
  }

  lemma {:induction false} SubsequenceOfTail<T>(a: seq<T>, b: seq<T>)
    requires |b| > 0 && IsSubsequence(a, b[1..])
    ensures IsSubsequence(a, b)
    decreases |b|, 0
  {
    if |a| > 0 && a[0] == b[0] {
      SubsequenceDropHead(a, b[1..]);
    }
  }

  lemma {:induction false} SubsequenceDropHead<T>(a: seq<T>, b: seq<T>)
    requires |a| > 0 && IsSubsequence(a, b)
    ensures IsSubsequence(a[1..], b)
    decreases |b|, 1
  {
    if a[0] != b[0] {
      SubsequenceDropHead(a, b[1..]);
    }
    SubsequenceOfTail(a[1..], b);
  }

  /** A filter's result is an order-preserving subsequence of its input. */
  lemma {:induction false} FilterIsSubsequence<T>(xs: seq<T>, p: T -> bool)
    ensures IsSubsequence(Filter(xs, p), xs)
    decreases |xs|
  {
    if |xs| > 0 {
      FilterIsSubsequence(xs[1..], p);
      if p(xs[0]) {
        assert Filter(xs, p)[1..] == Filter(xs[1..], p);
      } else {
        assert Filter(xs, p) == Filter(xs[1..], p);
        SubsequenceOfTail(Filter(xs, p), xs);
      }
    }
  }

  /** Filters agreeing on every element of `xs` select the same elements. */
  lemma {:induction false} FilterExtensional<T>(xs: seq<T>, p: T -> bool, q: T -> bool)
    requires forall i :: 0 <= i < |xs| ==> p(xs[i]) == q(xs[i])
    ensures Filter(xs, p) == Filter(xs, q)
    decreases |xs|
  {
    if |xs| > 0 {
      FilterExtensional(xs[1..], p, q);
    }
  }

  /** Two filters in a row are one filter by the conjunction `pq`. */
  lemma {:induction false} FilterFuse<T>(xs: seq<T>, p: T -> bool, q: T -> bool, pq: T -> bool)
    requires forall i :: 0 <= i < |xs| ==> pq(xs[i]) == (p(xs[i]) && q(xs[i]))
    ensures Filter(Filter(xs, p), q) == Filter(xs, pq)
    decreases |xs|
  {
    if |xs| > 0 {
      FilterFuse(xs[1..], p, q, pq);
      var head := if p(xs[0]) then [xs[0]] else [];
      FilterConcat(head, Filter(xs[1..], p), q);
    }
  }

  /** Independent filters commute. */
  lemma FilterCommutes<T>(xs: seq<T>, p: T -> bool, q: T -> bool)
    ensures Filter(Filter(xs, p), q) == Filter(Filter(xs, q), p)
  {
    var both := (x: T) => p(x) && q(x);
    FilterFuse(xs, p, q, both);
    FilterFuse(xs, q, p, both);
  }

  /** A filter that every element passes changes nothing. */
  lemma {:induction false} FilterKeepsAll<T>(xs: seq<T>, p: T -> bool)
    requires forall i :: 0 <= i < |xs| ==> p(xs[i])
    ensures Filter(xs, p) == xs
    decreases |xs|
  {
    if |xs| > 0 {
      FilterKeepsAll(xs[1..], p);
    }
  }

  /** A filter that no element passes yields the empty sequence. */
  lemma FilterDropsAll<T>(xs: seq<T>, p: T -> bool)
    requires forall i :: 0 <= i < |xs| ==> !p(xs[i])
    ensures Filter(xs, p) == []
  {
  }

  lemma {:induction false} MapConcat<T, U>(f: T -> U, a: seq<T>, b: seq<T>)
    ensures Map(f, a + b) == Map(f, a) + Map(f, b)
  {
  }

  /** Projecting the survivors of a filter equals filtering the projections by a
      predicate that agrees with it. */
  lemma {:induction false} MapFilter<T, U>(f: T -> U, xs: seq<T>, p: T -> bool, q: U -> bool)
    requires forall i :: 0 <= i < |xs| ==> p(xs[i]) == q(f(xs[i]))
    ensures Map(f, Filter(xs, p)) == Filter(Map(f, xs), q)
    decreases |xs|
  {
    if |xs| > 0 {
      MapFilter(f, xs[1..], p, q);
      var head := if p(xs[0]) then [xs[0]] else [];
      MapConcat(f, head, Filter(xs[1..], p));
      assert Map(f, xs)[1..] == Map(f, xs[1..]);
    }
  }

  /** `xs.map(f)` where `f` may throw: the results in order, or the first failure. */
  function MapResult<T, U, E>(f: T -> Result<U, E>, xs: seq<T>): (r: Result<seq<U>, E>)
    ensures r.Success? ==> |r.value| == |xs|
  {
    if |xs| == 0 then Success([])
    else
      match f(xs[0])
      case Failure(e) => Failure(e)
      case Success(y) =>
        match MapResult(f, xs[1..])
        case Failure(e) => Failure(e)
        case Success(ys) => Success([y] + ys)
  }

  /** On success, element `i` is `f`'s result for input `i`. */
  lemma {:induction false} MapResultAt<T, U, E>(f: T -> Result<U, E>, xs: seq<T>, i: nat)
    requires MapResult(f, xs).Success? && i < |xs|
    ensures f(xs[i]) == Success(MapResult(f, xs).value[i])
    decreases i
  {
    var rest := MapResult(f, xs[1..]);
    assert f(xs[0]).Success? && rest.Success?;
    assert MapResult(f, xs).value == [f(xs[0]).value] + rest.value;
    if i > 0 {
      MapResultAt(f, xs[1..], i - 1);
      assert xs[1..][i - 1] == xs[i];
    }
  }

  /** It fails exactly when some input fails, and then with the error of the first one. */
  lemma {:induction false} MapResultFailure<T, U, E>(f: T -> Result<U, E>, xs: seq<T>)
    ensures MapResult(f, xs).Failure? <==> exists i :: 0 <= i < |xs| && f(xs[i]).Failure?
    ensures MapResult(f, xs).Failure? ==>
      exists i :: 0 <= i < |xs| && f(xs[i]) == Failure(MapResult(f, xs).error) && (forall j :: 0 <= j < i ==> f(xs[j]).Success?)
    decreases |xs|
  {
    if |xs| > 0 {
      MapResultFailure(f, xs[1..]);
      assert forall i :: 1 <= i < |xs| ==> xs[i] == xs[1..][i - 1];
      if f(xs[0]).Success? && MapResult(f, xs[1..]).Failure? {
        var k :| 0 <= k < |xs[1..]| && f(xs[1..][k]) == Failure(MapResult(f, xs[1..]).error)
          && forall j :: 0 <= j < k ==> f(xs[1..][j]).Success?;
        assert f(xs[k + 1]) == Failure(MapResult(f, xs).error);
        assert forall j :: 1 <= j < k + 1 ==> f(xs[j]) == f(xs[1..][j - 1]);
      }
    }
  }
}

=== FILE: server.dfy ===
/** The server's orchestration (server.js): the store registry, `fetchAllProducts`
    with its liveness signal, the three-hour cache, the `/api/products` handler and
    `/api/status`. Clock readings are parameters, in milliseconds. */
module Server {
  import opened Wrappers
  import opened Seqs
  import opened Catalog
  import opened Scrapers
  import opened ProductQuery

  // ---------------------------------------------------------------------------
  // Store registry (`STORES`)

  datatype Store = Store(
    id: StoreId,
    name: string,
    shortName: string,
    color: string,
    textColor: string,
    url: string,
    offersUrl: Option<string>)

  /** The four stores, in the object's key order. */
  const Stores: seq<Store> := [
    Store("ica", "ICA Kvantum", "ICA", "#E2001A", "#fff",
      "https://www.ica.se/butiker/kvantum/stromstad/ica-kvantum-stromstad-1003740/",
      Some("https://www.ica.se/butiker/kvantum/stromstad/ica-kvantum-stromstad-1003740/erbjudanden/")),
    Store("maxi", "Maxi ICA Nordby", "Maxi", "#003087", "#fff", "https://www.maximatnordby.se/", None),
    Store("willys", "Willys", "Willys", "#009F3E", "#fff", "https://www.willys.se/erbjudanden/ehandel", None),
    Store("eurocash", "Eurocash", "Eurocash", "#E6B000", "#000", "https://www.eurocash.se/butiker/stromstad/", None)
  ]

  /** The registry's keys are distinct, each entry's `id` is its key, and every store
      has a short name. */
  lemma RegistryWellFormed()
    ensures forall i, j :: 0 <= i < j < |Stores| ==> Stores[i].id != Stores[j].id
    ensures forall i :: 0 <= i < |Stores| ==> Stores[i].shortName != ""
  {
    assert Stores[0].id == "ica" && Stores[1].id == "maxi" && Stores[2].id == "willys" && Stores[3].id == "eurocash";
  }

  /** `Object.keys(STORES)`. */
  function StoreKeys(): (keys: seq<StoreId>)
    ensures |keys| == |Stores|
    ensures forall i :: 0 <= i < |Stores| ==> keys[i] == Stores[i].id
  {
    Map((s: Store) => s.id, Stores)
  }

  // ---------------------------------------------------------------------------
  // Liveness

  /** One outcome of `Promise.allSettled`: a fulfilled array's length, or a rejection. */
  datatype Settled = Fulfilled(length: nat) | Rejected

  /** `res.value?.length > 3`: a rejection has no value, and `undefined > 3` is false. */
  predicate LiveSource(s: Settled) {
    s.Fulfilled? && s.length > 3
  }

  /** The `||` fold over the settled results. */
  function IsLive(results: seq<Settled>): (live: bool)
    ensures live <==> exists i :: 0 <= i < |results| && results[i].Fulfilled? && results[i].length > 3
  {
    if |results| == 0 then false
    else
      assert forall i :: 1 <= i < |results| ==> results[i] == results[1..][i - 1];
      LiveSource(results[0]) || IsLive(results[1..])
  }

  /** The pages the four scrapers would see; `None` is a failed fetch. */
  datatype StorePages = StorePages(ica: Option<Page>, maxi: Option<Page>, willys: Option<Page>, eurocash: Option<Page>)

  /** The four scrapers never reject: each catches its own errors and returns `[]`. */
  function ScrapeAll(pages: StorePages): (results: seq<Settled>)
    ensures |results| == 4 && forall i :: 0 <= i < 4 ==> results[i].Fulfilled?
  {
    FourFulfilled(|ScrapeIca(pages.ica)|, |ScrapeMaxi(pages.maxi)|, |ScrapeWillys(pages.willys)|, |ScrapeEurocash(pages.eurocash)|)
  }

  function FourFulfilled(a: nat, b: nat, c: nat, d: nat): (results: seq<Settled>)
    ensures results == [Fulfilled(a), Fulfilled(b), Fulfilled(c), Fulfilled(d)]
    ensures |results| == 4 && forall i :: 0 <= i < 4 ==> results[i].Fulfilled?
  {
    [Fulfilled(a), Fulfilled(b), Fulfilled(c), Fulfilled(d)]
  }

  // ---------------------------------------------------------------------------
  // Cache

  /** `CACHE_TTL`: three hours in milliseconds. */
  const CacheTtl: int := 3 * 60 * 60 * 1000

  /** The module-level `cache`: nothing loaded yet, or the last successful refresh.
      `products`, `lastUpdated` and `isLive` are always assigned together. */
  datatype CacheState =
    | Cold
    | Warm(products: seq<EnrichedProduct>, lastUpdated: int, isLive: bool)

  /** `!cache.products || Date.now() - cache.lastUpdated > CACHE_TTL`. */
  predicate RefreshDue(state: CacheState, now: int)
    ensures state.Cold? ==> RefreshDue(state, now)
    ensures state.Warm? ==> (RefreshDue(state, now) <==> now >= state.lastUpdated + 10_800_001)
  {
    match state
    case Cold => true
    case Warm(_, lastUpdated, _) => now - lastUpdated > CacheTtl
  }

  /** The part of `fetchAllProducts` after the scrapers settled. The catalogue is always
      the enriched reference list; `completedAt` is the clock reading of `new Date()`. */
  function Refresh(results: seq<Settled>, reference: seq<Product>, completedAt: int): (r: Result<CacheState, DataError>)
    ensures r.Failure? <==> exists i :: 0 <= i < |reference| && |reference[i].prices| == 0
    ensures r.Success? ==> r.value.Warm? && r.value.lastUpdated == completedAt
    ensures r.Success? ==> (r.value.isLive <==> exists i :: 0 <= i < |results| && LiveSource(results[i]))
    ensures r.Success? ==> Enrich(reference).Success? && r.value.products == Enrich(reference).value
    ensures r.Success? ==> |r.value.products| == |reference|
  {
    match Enrich(reference)
    case Failure(e) => Failure(e)
    case Success(products) => Success(Warm(products, completedAt, IsLive(results)))
  }

  /** `fetchAllProducts`: the enriched reference list, flagged live exactly when some
      store's scraper found more than three items. */
  function FetchAllProducts(pages: StorePages, reference: seq<Product>, completedAt: int): (r: Result<CacheState, DataError>)
    ensures r.Failure? <==> exists i :: 0 <= i < |reference| && |reference[i].prices| == 0
    ensures r.Success? ==> r.value.Warm? && r.value.products == Enrich(reference).value && r.value.lastUpdated == completedAt
    ensures r.Success? ==> (r.value.isLive <==>
      (|ScrapeIca(pages.ica)| > 3 || |ScrapeMaxi(pages.maxi)| > 3 || |ScrapeWillys(pages.willys)| > 3 || |ScrapeEurocash(pages.eurocash)| > 3))
  {
    LiveOfFour(|ScrapeIca(pages.ica)|, |ScrapeMaxi(pages.maxi)|, |ScrapeWillys(pages.willys)|, |ScrapeEurocash(pages.eurocash)|);
    Refresh(ScrapeAll(pages), reference, completedAt)
  }

  /** Whatever the scrapers returned, a refresh serves the same catalogue. */
  lemma CatalogueIgnoresScrapes(a: seq<Settled>, b: seq<Settled>, reference: seq<Product>, t: int)
    ensures Refresh(a, reference, t).Success? == Refresh(b, reference, t).Success?
    ensures Refresh(a, reference, t).Success? ==> Refresh(a, reference, t).value.products == Refresh(b, reference, t).value.products
  {
  }

  lemma LiveOfFour(a: nat, b: nat, c: nat, d: nat)
    ensures IsLive([Fulfilled(a), Fulfilled(b), Fulfilled(c), Fulfilled(d)]) <==> (a > 3 || b > 3 || c > 3 || d > 3)
  {
    var rs := [Fulfilled(a), Fulfilled(b), Fulfilled(c), Fulfilled(d)];
    assert rs[0].length == a && rs[1].length == b && rs[2].length == c && rs[3].length == d;
  }

  /** With every fetch failing the refresh still completes, flagged as not live. */
  lemma AllFetchesFailingStillRefreshes(reference: seq<Product>, t: int)
    requires Enrich(reference).Success?
    ensures FetchAllProducts(StorePages(None, None, None, None), reference, t) == Success(Warm(Enrich(reference).value, t, false))
  {
    var rs := ScrapeAll(StorePages(None, None, None, None));
    assert rs == [Fulfilled(0), Fulfilled(0), Fulfilled(0), Fulfilled(0)];
    LiveOfFour(0, 0, 0, 0);
  }

  // ---------------------------------------------------------------------------
  // `GET /api/products`

  datatype ProductsResponse =
    | Products(products: seq<EnrichedProduct>, lastUpdated: int, isLive: bool)
    | ServerError

  /** The handler: refresh if due (a failed refresh leaves the cache as it was and
      answers 500), then filter the cached catalogue. `results` and `completedAt` are
      what the scrapers and the clock would give if a refresh runs. */
  function HandleProducts(state: CacheState, now: int, results: seq<Settled>, reference: seq<Product>,
                          completedAt: int, req: Request): (r: (CacheState, ProductsResponse))
    ensures state.Warm? && now - state.lastUpdated <= 10_800_000 ==>
      r.0 == state && r.1 == Products(Run(state.products, req), state.lastUpdated, state.isLive)
    ensures (state.Cold? || now - state.lastUpdated > 10_800_000) && Enrich(reference).Failure? ==>
      r == (state, ServerError)
    ensures (state.Cold? || now - state.lastUpdated > 10_800_000) && Enrich(reference).Success? ==>
      r.0 == Warm(Enrich(reference).value, completedAt, IsLive(results))
      && r.1 == Products(Run(r.0.products, req), completedAt, r.0.isLive)
  {
    var current := if RefreshDue(state, now) then Refresh(results, reference, completedAt) else Success(state);
    match current
    case Failure(_) => (state, ServerError)
    case Success(s) =>
      match s
      case Cold => (s, ServerError)
      case Warm(products, lastUpdated, isLive) => (s, Products(Run(products, req), lastUpdated, isLive))
  }

  /** A cache stays fresh for exactly three hours: at 10 800 000 ms it is still served,
      one millisecond later it is refreshed. */
  lemma FreshForExactlyThreeHours(products: seq<EnrichedProduct>, t: int, live: bool)
    ensures !RefreshDue(Warm(products, t, live), t + 10_800_000)
    ensures RefreshDue(Warm(products, t, live), t + 10_800_001)
  {
  }

  /** Two queries in the freshness window, with nothing in between, see the same
      `lastUpdated` and the same catalogue order. */
  lemma RepeatedQueryIsStable(state: CacheState, t1: int, t2: int, results: seq<Settled>, reference: seq<Product>,
                              completedAt: int, req: Request)
    requires state.Warm? && state.lastUpdated <= t1 <= t2 && t2 - state.lastUpdated <= CacheTtl
    ensures HandleProducts(state, t1, results, reference, completedAt, req) ==
            HandleProducts(HandleProducts(state, t1, results, reference, completedAt, req).0, t2, results, reference, completedAt, req)
  {
  }

  /** Every answer is a subsequence of the catalogue it was cut from. */
  lemma AnswerComesFromCache(state: CacheState, now: int, results: seq<Settled>, reference: seq<Product>,
                             completedAt: int, req: Request)
    ensures var r := HandleProducts(state, now, results, reference, completedAt, req);
      r.1.Products? ==> r.0.Warm? && IsSubsequence(r.1.products, r.0.products) && r.1.lastUpdated == r.0.lastUpdated
  {
    var r := HandleProducts(state, now, results, reference, completedAt, req);
    if r.1.Products? {
      RunIsSubsequence(r.0.products, req);
    }
  }

  // ---------------------------------------------------------------------------
  // `GET /api/status`

  datatype StatusReport = StatusReport(lastUpdated: Option<int>, productCount: nat, isLive: bool, stores: seq<StoreId>)

  /** `productCount: cache.products?.length || 0`; reading the status changes nothing. */
  function Status(state: CacheState): (r: StatusReport)
    ensures state.Cold? ==> r.productCount == 0 && r.lastUpdated.None? && !r.isLive
    ensures state.Warm? ==> r.productCount == |state.products| && r.lastUpdated == Some(state.lastUpdated) && r.isLive == state.isLive
    ensures r.stores == ["ica", "maxi", "willys", "eurocash"]
  {
    var keys := StoreKeys();
    assert keys == ["ica", "maxi", "willys", "eurocash"];
    match state
    case Cold => StatusReport(None, 0, false, keys)
    case Warm(products, lastUpdated, isLive) => StatusReport(Some(lastUpdated), |products|, isLive, keys)
  }
}

=== FILE: stable_sort.dfy ===
/** A stable sort by a comparator, the behaviour `Array.prototype.sort` has had since
    ECMAScript 2019 (section 23.1.3.30 of ECMAScript 2024): elements the comparator
    calls equal keep their relative order. `le(a, b)` means "the comparator does not put
    `b` strictly before `a`", i.e. `compare(a, b) <= 0`. */
module StableSort {
  import opened Seqs

  /** `le` is total and transitive, as a consistent JavaScript comparator is. */
  ghost predicate TotalPreorder<T(!new)>(le: (T, T) -> bool) {
    && (forall x, y :: le(x, y) || le(y, x))
    && (forall x, y, z :: le(x, y) && le(y, z) ==> le(x, z))
  }

  predicate SortedBy<T>(le: (T, T) -> bool, xs: seq<T>) {
    forall i, j | 0 <= i < j < |xs| :: le(xs[i], xs[j])
  }

  /** Every two elements satisfying `p` are tied under `le` (`p` picks part of one tie class). */
  ghost predicate Tied<T(!new)>(le: (T, T) -> bool, p: T -> bool) {
    forall a, b :: p(a) && p(b) ==> le(a, b)
  }

  /** Puts `x` in front of the first element of `ys` it does not exceed. */
  function Insert<T>(le: (T, T) -> bool, x: T, ys: seq<T>): (r: seq<T>)
    ensures |r| == |ys| + 1
    ensures multiset(r) == multiset{x} + multiset(ys)
  {
    if |ys| == 0 then [x]
    else if le(x, ys[0]) then [x] + ys
    else
      assert ys == [ys[0]] + ys[1..];
      [ys[0]] + Insert(le, x, ys[1..])
  }

  lemma {:induction false} InsertSorted<T(!new)>(le: (T, T) -> bool, x: T, ys: seq<T>)
    requires TotalPreorder(le)
    requires SortedBy(le, ys)
    ensures SortedBy(le, Insert(le, x, ys))
    decreases |ys|
  {
    if |ys| > 0 && !le(x, ys[0]) {
      var tail := Insert(le, x, ys[1..]);
      InsertSorted(le, x, ys[1..]);
      forall k | 0 <= k < |tail|
        ensures le(ys[0], tail[k])
      {
        assert tail[k] in multiset(tail);
        assert tail[k] == x || tail[k] in multiset(ys[1..]);
        if tail[k] != x {
          var m :| 0 <= m < |ys[1..]| && ys[1..][m] == tail[k];
          assert ys[m + 1] == tail[k];
        }
      }
    }
  }

  /** Insertion sort: the first element is inserted into the sorted rest, so it lands
      in front of every element it ties with. */
  function Sort<T(!new)>(le: (T, T) -> bool, xs: seq<T>): (r: seq<T>)
    requires TotalPreorder(le)
    ensures |r| == |xs|
    ensures multiset(r) == multiset(xs)
    ensures SortedBy(le, r)
  {
    if |xs| == 0 then []
    else
      assert xs == [xs[0]] + xs[1..];
      var rest := Sort(le, xs[1..]);
      InsertSorted(le, xs[0], rest);
      Insert(le, xs[0], rest)
  }

  /** An element not tied with `x` may move past `x` without changing a tied filter. */
  lemma {:induction false} SwapUntied<T(!new)>(le: (T, T) -> bool, p: T -> bool, x: T, y: T, rest: seq<T>)
    requires Tied(le, p)
    requires !le(x, y)
    ensures Filter([y], p) + Filter([x] + rest, p) == Filter([x] + ([y] + rest), p)
  {
    var xyr := [x] + ([y] + rest);
    assert xyr[1..] == [y] + rest;
    assert ([y] + rest)[1..] == rest;
    assert ([x] + rest)[1..] == rest;
    assert Filter([y], p) == if p(y) then [y] else [];
    if p(x) {
      assert !p(y);
      assert Filter(xyr, p) == [x] + Filter(rest, p);
      assert Filter([x] + rest, p) == [x] + Filter(rest, p);
    } else {
      assert Filter(xyr, p) == Filter([y] + rest, p);
      assert Filter([x] + rest, p) == Filter(rest, p);
    }
  }

  lemma {:induction false} InsertKeepsTied<T(!new)>(le: (T, T) -> bool, p: T -> bool, x: T, ys: seq<T>)
    requires Tied(le, p)
    ensures Filter(Insert(le, x, ys), p) == Filter([x] + ys, p)
    decreases |ys|
  {
    if |ys| > 0 && !le(x, ys[0]) {
      var y, rest := ys[0], ys[1..];
      assert ys == [y] + rest;
      assert Insert(le, x, ys) == [y] + Insert(le, x, rest);
      InsertKeepsTied(le, p, x, rest);
      FilterConcat([y], Insert(le, x, rest), p);
      SwapUntied(le, p, x, y, rest);
    }
  }

  /** Stability: the elements of any tie class come out in the order they went in. */
  lemma {:induction false} SortKeepsTiedOrder<T(!new)>(le: (T, T) -> bool, p: T -> bool, xs: seq<T>)
    requires TotalPreorder(le)
    requires Tied(le, p)
    ensures Filter(Sort(le, xs), p) == Filter(xs, p)
    decreases |xs|
  {
    if |xs| > 0 {
      var x, rest := xs[0], xs[1..];
      assert xs == [x] + rest;
      calc {
        Filter(Sort(le, xs), p);
        Filter(Insert(le, x, Sort(le, rest)), p);
        { InsertKeepsTied(le, p, x, Sort(le, rest)); }
        Filter([x] + Sort(le, rest), p);
        { FilterConcat([x], Sort(le, rest), p); }
        Filter([x], p) + Filter(Sort(le, rest), p);
        { SortKeepsTiedOrder(le, p, rest); }
        Filter([x], p) + Filter(rest, p);
        { FilterConcat([x], rest, p); }
        Filter(xs, p);
      }
    }
  }

  /** Sorting an already sorted sequence leaves it as it is. */
  lemma {:induction false} SortOfSortedIsIdentity<T(!new)>(le: (T, T) -> bool, xs: seq<T>)
    requires TotalPreorder(le)
    requires SortedBy(le, xs)
    ensures Sort(le, xs) == xs
    decreases |xs|
  {
    if |xs| > 0 {
      SortOfSortedIsIdentity(le, xs[1..]);
      assert xs == [xs[0]] + xs[1..];
    }
  }

  /** The same elements, so every index of one has a partner index in the other. */
  lemma IndexInPermutation<T>(a: seq<T>, b: seq<T>, i: nat)
    requires multiset(a) == multiset(b) && i < |a|
    ensures exists k :: 0 <= k < |b| && b[k] == a[i]
  {
    assert a[i] in multiset(b) by { assert a[i] in multiset(a); }
  }

  /** The last element of a sorted copy comes from the input and is not below any input element. */
  lemma SortedLast<T(!new)>(le: (T, T) -> bool, xs: seq<T>, j: nat)
    requires TotalPreorder(le) && j < |xs|
    ensures exists i :: 0 <= i < |xs| && xs[i] == Sort(le, xs)[|xs| - 1]
    ensures le(xs[j], Sort(le, xs)[|xs| - 1])
  {
    var r := Sort(le, xs);
    IndexInPermutation(r, xs, |r| - 1);
    IndexInPermutation(xs, r, j);
    var k :| 0 <= k < |r| && r[k] == xs[j];
    assert le(r[k], r[|r| - 1]) || k == |r| - 1;
  }

  /** Applying the sort twice gives the same sequence as applying it once. */
  lemma SortIdempotent<T(!new)>(le: (T, T) -> bool, xs: seq<T>)
    requires TotalPreorder(le)
    ensures Sort(le, Sort(le, xs)) == Sort(le, xs)
  {
    SortOfSortedIsIdentity(le, Sort(le, xs));
  }

  /** A filter of a sorted sequence is still sorted. */
  lemma FilterKeepsSorted<T>(le: (T, T) -> bool, xs: seq<T>, p: T -> bool)
    requires SortedBy(le, xs)
    ensures SortedBy(le, Filter(xs, p))
  {
    var r := Filter(xs, p);
    FilterIsSubsequence(xs, p);
    SubsequenceKeepsSorted(le, r, xs);
  }

  lemma {:induction false} SubsequenceKeepsSorted<T>(le: (T, T) -> bool, a: seq<T>, b: seq<T>)
    requires SortedBy(le, b)
    requires IsSubsequence(a, b)
    ensures SortedBy(le, a)
    decreases |b|
  {
    if |a| > 0 {
      if a[0] == b[0] {
        SubsequenceKeepsSorted(le, a[1..], b[1..]);
        forall j | 0 < j < |a|
          ensures le(a[0], a[j])
        {
          SubsequenceMembers(a[1..], b[1..]);
          var k :| 0 <= k < |b[1..]| && b[1..][k] == a[1..][j - 1];
          assert b[k + 1] == a[j];
        }
      } else {
        SubsequenceKeepsSorted(le, a, b[1..]);
      }
    }
  }

  lemma {:induction false} SubsequenceMembers<T>(a: seq<T>, b: seq<T>)
    requires IsSubsequence(a, b)
    ensures forall i :: 0 <= i < |a| ==> a[i] in b
    decreases |b|
  {
    if |a| > 0 {
      if a[0] == b[0] {
        SubsequenceMembers(a[1..], b[1..]);
        assert forall i :: 1 <= i < |a| ==> a[i] == a[1..][i - 1];
      } else {
        SubsequenceMembers(a, b[1..]);
      }
    }
  }

  lemma {:induction false} MapInsertMultiset<T, U>(f: T -> U, le: (T, T) -> bool, x: T, ys: seq<T>)
    ensures multiset(Map(f, Insert(le, x, ys))) == multiset{f(x)} + multiset(Map(f, ys))
    decreases |ys|
  {
    if |ys| > 0 {
      assert ys == [ys[0]] + ys[1..];
      MapConcat(f, [ys[0]], ys[1..]);
      if le(x, ys[0]) {
        MapConcat(f, [x], ys);
      } else {
        MapInsertMultiset(f, le, x, ys[1..]);
        MapConcat(f, [ys[0]], Insert(le, x, ys[1..]));
      }
    }
  }

  /** Sorting permutes the elements, so it permutes any projection of them too. */
  lemma {:induction false} MapSortMultiset<T(!new), U>(f: T -> U, le: (T, T) -> bool, xs: seq<T>)
    requires TotalPreorder(le)
    ensures multiset(Map(f, Sort(le, xs))) == multiset(Map(f, xs))
    decreases |xs|
  {
    if |xs| > 0 {
      assert xs == [xs[0]] + xs[1..];
      MapSortMultiset(f, le, xs[1..]);
      MapInsertMultiset(f, le, xs[0], Sort(le, xs[1..]));
      MapConcat(f, [xs[0]], xs[1..]);
    }
  }
}

=== FILE: text.dfy ===
/** Character-level helpers shared by the server and the client: decimal digits,
    `String.prototype.toLowerCase` and `String.prototype.includes`. */
module Text {

  predicate IsDigit(c: char) {
    '0' <= c <= '9'
  }

  predicate AllDigits(s: string) {
    forall i :: 0 <= i < |s| ==> IsDigit(s[i])
  }

  function DigitChar(d: nat): (c: char)
    requires d < 10
    ensures IsDigit(c) && c as int - '0' as int == d
  {
    ('0' as int + d) as char
  }

  function DigitValue(c: char): (d: nat)
    requires IsDigit(c)
    ensures d < 10 && DigitChar(d) == c
  {
    c as int - '0' as int
  }

  /** Decimal rendering of a non-negative integer, without leading zeros. */
  function NatToDigits(n: nat): (s: string)
    ensures |s| > 0 && AllDigits(s)
    ensures |s| > 1 ==> s[0] != '0'
    decreases n
  {
    if n < 10 then [DigitChar(n)] else NatToDigits(n / 10) + [DigitChar(n % 10)]
  }

  /** The value of a string of decimal digits, most significant digit first. */
  function DigitsValue(s: string): nat
    requires AllDigits(s)
  {
    if |s| == 0 then 0 else DigitsValue(s[..|s| - 1]) * 10 + DigitValue(s[|s| - 1])
  }

  /** Reading back a rendered number gives the number. */
  lemma {:induction false} DigitsRoundTrip(n: nat)
    ensures DigitsValue(NatToDigits(n)) == n
    decreases n
  {
    if n >= 10 {
      var s := NatToDigits(n);
      assert s[..|s| - 1] == NatToDigits(n / 10);
      DigitsRoundTrip(n / 10);
    }
  }

  /** Appending digits multiplies the value of the prefix by a power of ten. */
  lemma {:induction false} DigitsValueAppend(a: string, b: string)
    requires AllDigits(a) && AllDigits(b)
    ensures AllDigits(a + b)
    ensures DigitsValue(a + b) == DigitsValue(a) * Pow10(|b|) + DigitsValue(b)
    decreases |b|
  {
    var ab := a + b;
    AllDigitsConcat(a, b);
    if |b| == 0 {
      assert ab == a;
    } else {
      var b' := b[..|b| - 1];
      assert ab[..|ab| - 1] == a + b';
      assert ab[|ab| - 1] == b[|b| - 1];
      DigitsValueAppend(a, b');
      var va, vb', d, p := DigitsValue(a), DigitsValue(b'), DigitValue(b[|b| - 1]), Pow10(|b'|);
      assert DigitsValue(ab) == (va * p + vb') * 10 + d;
      assert DigitsValue(b) == vb' * 10 + d;
      assert Pow10(|b|) == 10 * p;
      ShiftDigit(va, vb', d, p);
    }
  }

  lemma AllDigitsConcat(a: string, b: string)
    requires AllDigits(a) && AllDigits(b)
    ensures AllDigits(a + b)
  {
    var ab := a + b;
    forall i | 0 <= i < |ab| ensures IsDigit(ab[i]) {
      if i >= |a| { assert ab[i] == b[i - |a|]; }
    }
  }

  /** One more digit: `(va·p + vb)·10 + d = va·(10·p) + (vb·10 + d)`. */
  lemma ShiftDigit(va: int, vb: int, d: int, p: int)
    ensures (va * p + vb) * 10 + d == va * (10 * p) + (vb * 10 + d)
  {
  }

  function Pow10(k: nat): (r: nat)
    ensures r >= 1
  {
    if k == 0 then 1 else 10 * Pow10(k - 1)
  }

  /** Two digits with a leading zero, `n` being below 100. */
  function TwoDigits(n: nat): (s: string)
    requires n < 100
    ensures |s| == 2 && AllDigits(s) && DigitsValue(s) == n
  {
    var hi, lo := DigitChar(n / 10), DigitChar(n % 10);
    var s := [hi, lo];
    assert s[..1] == [hi];
    assert [hi][..0] == [];
    assert DigitsValue([hi]) == DigitsValue([]) * 10 + DigitValue(hi);
    assert DigitValue(hi) == n / 10 && DigitValue(lo) == n % 10;
    assert DigitsValue(s) == DigitsValue([hi]) * 10 + DigitValue(lo);
    s
  }

  /** A digit string with a non-zero leading digit has a positive value. */
  lemma {:induction false} LeadingNonZeroIsPositive(s: string)
    requires AllDigits(s) && |s| > 0 && s[0] != '0'
    ensures DigitsValue(s) > 0
    decreases |s|
  {
    if |s| > 1 {
      LeadingNonZeroIsPositive(s[..|s| - 1]);
    }
  }

  /** Every digit string without a leading zero is the rendering of its own value, so
      `NatToDigits` is the only such rendering. */
  lemma {:induction false} CanonicalDigits(s: string)
    requires AllDigits(s) && |s| > 0 && (|s| > 1 ==> s[0] != '0')
    ensures NatToDigits(DigitsValue(s)) == s
    decreases |s|
  {
    var v := DigitsValue(s);
    var d := DigitValue(s[|s| - 1]);
    if |s| > 1 {
      var init := s[..|s| - 1];
      assert init[0] == s[0];
      LeadingNonZeroIsPositive(init);
      CanonicalDigits(init);
      assert v / 10 == DigitsValue(init) && v % 10 == d;
      assert s == init + [DigitChar(d)];
    } else {
      assert s[..0] == [];
      assert s == [DigitChar(d)];
    }
  }

  /** Two digits are the two-digit rendering of their value. */
  lemma CanonicalTwoDigits(t: string)
    requires AllDigits(t) && |t| == 2
    ensures DigitsValue(t) < 100 && TwoDigits(DigitsValue(t)) == t
  {
    var hi := t[..1];
    assert hi[..0] == [] && hi[0] == t[0];
    assert DigitsValue(hi) == DigitValue(t[0]);
    assert t[..|t| - 1] == hi;
    assert DigitsValue(t) == DigitValue(t[0]) * 10 + DigitValue(t[1]);
  }

  /** A price of `ore` öre written as kronor, a separator, two öre digits and " kr". */
  function PriceLabel(ore: nat, sep: char): string {
    NatToDigits(ore / 100) + [sep] + TwoDigits(ore % 100) + " kr"
  }

  /** The kronor and öre digits read together give the price in öre. */
  lemma LabelDigitsValue(ore: nat)
    ensures AllDigits(NatToDigits(ore / 100) + TwoDigits(ore % 100))
    ensures DigitsValue(NatToDigits(ore / 100) + TwoDigits(ore % 100)) == ore
  {
    DigitsValueAppend(NatToDigits(ore / 100), TwoDigits(ore % 100));
    DigitsRoundTrip(ore / 100);
    assert Pow10(2) == 100;
  }

  /** Lower-cases ASCII A–Z and the Latin-1 capitals À–Þ (all but the sign ×),
      which covers the Swedish alphabet; other characters are left as they are. */
  function LowerChar(c: char): char {
    if 'A' <= c <= 'Z' || ('À' <= c <= 'Þ' && c != '×') then (c as int + 32) as char
    else c
  }

  function ToLower(s: string): (r: string)
    ensures |r| == |s|
    ensures forall i :: 0 <= i < |s| ==> r[i] == LowerChar(s[i])
  {
    if |s| == 0 then [] else [LowerChar(s[0])] + ToLower(s[1..])
  }

  /** `q` occurs in `s` starting at index `i`. */
  predicate OccursAt(s: string, q: string, i: nat) {
    i + |q| <= |s| && s[i..i + |q|] == q
  }

  /** `s.includes(q)`, by scanning the start positions from left to right. */
  function Contains(s: string, q: string): bool
    decreases |s|
  {
    if |q| > |s| then false
    else if s[..|q|] == q then true
    else Contains(s[1..], q)
  }

  /** `Contains` holds exactly when `q` is a contiguous substring of `s`. */
  lemma {:induction false} ContainsMeansSubstring(s: string, q: string)
    ensures Contains(s, q) <==> exists i: nat :: OccursAt(s, q, i)
    decreases |s|
  {
    if |q| > |s| {
      assert forall i: nat :: !OccursAt(s, q, i);
    } else if s[..|q|] == q {
      assert OccursAt(s, q, 0);
    } else {
      ContainsMeansSubstring(s[1..], q);
      if Contains(s[1..], q) {
        var i: nat :| OccursAt(s[1..], q, i);
        assert s[1..][i..i + |q|] == s[i + 1..i + 1 + |q|];
        assert OccursAt(s, q, i + 1);
      } else {
        forall i: nat | OccursAt(s, q, i) ensures false {
          assert i != 0;
          assert s[1..][i - 1..i - 1 + |q|] == s[i..i + |q|];
          assert OccursAt(s[1..], q, i - 1);
        }
      }
    }
  }
}

=== FILE: wrappers.dfy ===
/** The two failure-carrying shapes the model uses: an optional value (a JavaScript
    `undefined`/`null` or NaN) and a computation that either succeeds or fails with an error. */
module Wrappers {

  datatype Option<+T> = None | Some(value: T)

  datatype Result<+R, +E> = Success(value: R) | Failure(error: E)
}
